=== FILE: README.md ===
# Nexus AI portal — a Dafny model

This project models the client logic and the static file server of the Nexus AI demo
portal. The portal has four browser pages and one Node server:

- **Sign-up** (`js/signup.js`). It has a role switch (user or admin), decides which
  form fields are shown, and checks the form. It then appends the new account to the
  `nexusUsers` list and writes the `currentUser` session.
- **Sign-in** (`js/signin.js`). It checks the form and looks up the credentials. On
  success it writes the `currentUser` session, the "remember me" entries, and chooses
  the redirect by role. It also offers guest access and a forgot-password link.
- **Admin dashboard** (`js/admin.js`). It checks the role, then filters an upload
  batch by MIME type and size. It keeps the list of uploaded files, deletes by id, and
  shows the list panel once a batch is uploaded and hides it when the list becomes empty.
- **User chat** (`js/user.js`). It checks the role and keeps an append-only message
  log. It HTML-escapes messages, picks canned replies from a general pool or a
  per-domain pool, and writes the badge and instruction texts.
- **Server** (`server.js`). It maps a URL to a file, picks the `Content-Type` from the
  extension, and turns the read result into status 200, 404 or 500.

The modules follow that structure:

- `Text` covers JavaScript whitespace, `trim`, UTF-16 `length` and `join`.
- `Email` covers the e-mail regular expression.
- `Storage` covers the account and session records, the browser storage and the
  redirect by role.
- `SignUp`, `SignIn`, `Admin`, `Chat` and `Server` each model one page or the server.
- `Flows` states how the pages meet through the session storage.

Sign-up, admin and chat are classes whose methods update their fields. The browser
storage is a class too: `users` is the `nexusUsers` list, `local` is `localStorage`,
and `session` is `sessionStorage`.

The storage keys are kept exactly as the pages use them:

- sign-in, sign-up and guest access write `currentUser`;
- the admin page reads `currentUser`;
- the user page reads `nexusUser`;
- both logouts remove `nexusUser`.

So `Flows` shows that signing in never changes what the user page's check sees.

## Model

| member | source | states |
|---|---|---|
| Text.TrimStartSpec | js/signup.js:98 | trimming the start cuts only a whitespace prefix, and what is left is empty or starts with a non-whitespace character |
| Text.TrimEndSpec | js/signup.js:98 | trimming the end cuts only a whitespace suffix, and what is left is empty or ends with a non-whitespace character |
| Text.TrimSpec | js/signup.js:98 | the result is a contiguous slice of the input with only whitespace cut from both ends, and it neither starts nor ends with whitespace |
| Text.TrimEmptyIff | js/user.js:75-77 | a string trims to empty exactly when every character is JavaScript whitespace |
| Text.Utf16Length | js/signup.js:76 | `length` counts UTF-16 code units: between the number of characters and twice that |
| Text.Utf16LengthOfChar | js/signup.js:76 | a code point above U+FFFF takes two code units, any other one |
| Text.Utf16LengthAppend | js/signup.js:76 | code units add up over concatenation |
| Text.Utf16LengthBmp | js/signup.js:76 | the length equals the number of characters exactly when no character is above U+FFFF |
| Email.EmailMatchesPattern | js/signup.js:70-71 | the executable check holds exactly when the string is non-whitespace, non-`@` characters, an `@`, then a domain with an inner `.` splitting it into two non-empty runs |
| Email.EmailShape | js/signup.js:70-71 | a valid address has no whitespace, exactly one `@`, not at the start, and a `.` in the domain part that is neither its first nor its last character; and conversely |
| Email.LocalPart | js/signup.js:129 | `split('@')[0]` is the prefix before the first `@` and holds no `@` |
| Email.ValidEmailSplits | js/signup.js:129 | a valid address is its non-empty local part, `@`, and the rest |
| Storage.RedirectFor | js/signin.js:146-150 | the target is `admin.html` exactly for role "admin" and `user.html` for every other role |
| Storage.PageSession | js/admin.js:21-23 | a page keeps the stored session exactly when the key is present and its role is the page's role |
| SignUp.FormVisibility | js/signup.js:44-64 | the checkbox is shown exactly for non-admins, and the domain list exactly for non-admins with the checkbox clear |
| SignUp.ErrorListSpec | js/signup.js:66-91 | each message is in the list exactly when its flag is set, the messages keep the order email, length, match, domain, and the list is empty exactly when no flag is set |
| SignUp.SignupErrorsSpec | js/signup.js:66-91 | each of the four errors appears exactly when its condition fails (length below 8 UTF-16 units; the domain error only for role "user", no general access and no domain); they come in the order email, length, match, domain; the list is empty exactly when all pass |
| SignUp.DomainErrorOnlyWhenShown | js/signup.js:44-89 | the domain error never fires while the domain list is hidden, and fires exactly on an empty selection while it is shown |
| SignUp.NewAccount | js/signup.js:123-131 | the stored account copies email, password, role and the general flag; its domain is "general" for general users and the selection otherwise; its name is the local part |
| SignUp.NewAccountName | js/signup.js:129 | for an accepted address the stored name is non-empty, has no `@`, and rebuilds the address with `@` and the rest |
| SignUp.SignupSession | js/signup.js:137-146 | the sign-up session copies email, role, domain, the general flag and the name of the new account |
| SignUp.RegisterKeepsEmailsUnique | js/signup.js:116-134 | appending an account whose address is not yet taken keeps all addresses distinct |
| SignUp.SignupManager.constructor | js/signup.js:7-8 | the page starts with role "user" |
| SignUp.SignupManager.SelectRole | js/signup.js:30-31 | the role buttons set the selected role |
| SignUp.SignupManager.ValidateForm | js/signup.js:66-92 | the pushed errors are exactly the specified error list for the selected role |
| SignUp.SignupManager.HandleSubmit | js/signup.js:94-154 | after trimming the address: errors alert joined by line feeds and leave storage untouched; a taken address alerts and leaves storage untouched; otherwise the new account is appended at the end, the sign-up session is written under `currentUser`, the other `localStorage` items are untouched, and the redirect follows the role |
| SignIn.SignInErrorsSpec | js/signin.js:27-42 | the invalid-address and missing-password errors each appear exactly when their condition holds, in that order; any non-empty password passes |
| SignIn.ValidateForm | js/signin.js:27-42 | the pushed errors are exactly the specified error list |
| SignIn.FindAccount | js/signin.js:123 | `find` succeeds exactly when some account has the address, and returns the first stored account with that address |
| SignIn.AuthenticateSpec | js/signin.js:122-125 | sign-in succeeds exactly when the first account with the address has the given password; an unknown address always fails |
| SignIn.AuthenticateUnique | js/signin.js:122-125 | with distinct addresses, sign-in succeeds exactly when some stored account has both the address and the password |
| SignIn.RegisteredAccountSignsIn | js/signin.js:122-125 | an account sign-up accepted and appended passes the sign-in check and is the account found |
| SignIn.SignInSession | js/signin.js:130-135 | the session copies exactly email, role, domain and the general flag, and carries no name |
| SignIn.HandleSignIn | js/signin.js:99-159 | after trimming the address: errors are shown joined by spaces and storage is untouched; failed credentials show one error and storage is untouched; on success the session goes under `currentUser`, the address is remembered only when asked, and the redirect follows the account's role |
| SignIn.HandleGuestAccess | js/signin.js:161-176 | the fixed guest session (guest@nexus.ai, role "guest", null domain, general access) goes under `currentUser` and the page goes to `user.html` |
| SignIn.ForgotPassword | js/signin.js:178-198 | an address that trims to empty gets the empty-address error before any format check; a non-empty invalid address gets the invalid-address error; the link is sent exactly for a valid trimmed address, with its message |
| SignIn.RememberMeRoundTrip | js/signin.js:205-213 | after "remember me" stored a valid address, the next visit prefills that address |
| Admin.Check | js/admin.js:106-117 | a file is accepted exactly when its type is one of the five and its size is at most 10 MiB; the type is checked first |
| Admin.UploadsAppend | js/admin.js:106-118 | a batch only appends: the list after it is the list before it followed by the batch's own records |
| Admin.AcceptedFilesMembers | js/admin.js:106-117 | the accepted files are exactly the files of the batch that pass both checks |
| Admin.UploadsAreAcceptedFiles | js/admin.js:106-118 | the first n files of a batch add exactly their accepted files, in input order, each stamped with the selected domain |
| Admin.UploadsPassChecks | js/admin.js:103-117 | every record the first n files of a batch add has an allowed type, a size of at most 10 MiB and the selected domain |
| Admin.RemoveIdSpec | js/admin.js:194 | delete removes every record with the id, keeps all others, keeps their relative order, and changes nothing when the id is absent |
| Admin.FormatFileSize | js/admin.js:207 | zero bytes shows "0 Bytes" |
| Admin.AdminManager.constructor | js/admin.js:7-10 | the page starts with no uploads and no domain |
| Admin.AdminManager.CheckAuthentication | js/admin.js:20-29 | only a `currentUser` session with role "admin" is kept; anything else redirects to `signup.html` |
| Admin.AdminManager.SelectDomain | js/admin.js:33-34 | the select sets the upload domain |
| Admin.AdminManager.UploadFile | js/admin.js:121-140 | the record with the file's name, size and type and the current domain is appended and the panel is shown |
| Admin.AdminManager.ProcessFiles | js/admin.js:97-119 | with no domain: one alert and no upload; otherwise the per-file alerts in order and exactly the accepted records appended; the panel stays shown exactly while the list is not empty |
| Admin.AdminManager.DeleteFile | js/admin.js:193-204 | the list is filtered by id, and the panel is hidden exactly when the list becomes empty |
| Admin.AdminManager.Logout | js/admin.js:214-217 | `nexusUser` is removed from the session storage, nothing else changes, and the page goes to `signup.html` |
| Chat.FormatIsPerCharacter | js/user.js:117-124 | the four chained replacements equal the per-character escape of `&`, `<`, `>` and line feed, every other character unchanged |
| Chat.FormattedIsSafe | js/user.js:117-124 | formatted text has no line feed, and every raw `<` or `>` in it belongs to a `<br>` |
| Chat.UnescapeFormat | js/user.js:117-124 | formatting loses nothing: undoing the escapes gives back the message |
| Chat.PickIndex | js/user.js:155 | `Math.floor(Math.random() * n)` is always an index below `n` |
| Chat.DomainPool | js/user.js:178 | a known domain uses its own pool; any other domain, or none, uses the one fallback |
| Chat.GeneralResponse | js/user.js:147-157 | the reply is a general pool entry followed by the general suffix |
| Chat.DomainResponse | js/user.js:159-182 | the reply is an entry of the domain's pool followed by the domain suffix |
| Chat.AIResponseSpec | js/user.js:137-141 | "general" uses the general pool, a known domain its own pool, and any other domain the fallback text |
| Chat.BadgeSpec | js/user.js:60-70 | the badge reads "🌍 General Access" exactly for the "general" domain and "🔒 <domain> Domain" otherwise |
| Chat.UserManager.constructor | js/user.js:7-8 | the page starts with an empty log |
| Chat.UserManager.CheckAuthentication | js/user.js:19-28 | only a `nexusUser` session with role "user" is kept; anything else redirects to `signup.html` |
| Chat.UserManager.AddMessage | js/user.js:87-97 | exactly one entry is appended and earlier entries are unchanged |
| Chat.UserManager.SimulateAIResponse | js/user.js:126-145 | exactly one reply from the session's pool is appended when a session is present |
| Chat.UserManager.SendMessage | js/user.js:73-85 | a message that trims to empty adds nothing; otherwise the trimmed message is appended as a user entry, followed by the reply |
| Chat.UserManager.Logout | js/user.js:210-213 | `nexusUser` is removed from the session storage, nothing else changes, and the page goes to `signup.html` |
| Server.RequestPath | server.js:6-11 | "/" names `index.html`; every other URL names itself |
| Server.LastSegmentSpec | server.js:14 | the last segment, after trailing `/` are skipped, holds no `/` and reaches back to a `/` or the start of the path |
| Server.ExtnameSpec | server.js:14 | the extension is empty exactly when the last segment has no `.` past its first character or is `..`; otherwise it is the segment's suffix from its last `.`, the only `.` in it |
| Server.ExtnameOfName | server.js:14 | the name `stem.e`, with no `.` or `/` in `e` and a last segment other than `..`, has the extension `.e` |
| Server.ContentType | server.js:17-34 | the five known extensions get their types, and everything else, `.jpeg` and no extension included, gets `text/html` |
| Server.Reply | server.js:36-49 | data gives 200 with the content type and the bytes; ENOENT gives 404 "File not found"; any other error gives 500 "Server error"; the header is set only on 200 |
| Server.Handle | server.js:5-50 | the reply is 200 exactly when the mapped file is read, 404 exactly on ENOENT and 500 on any other error; a 200 carries the type chosen from the mapped path's extension and the file's bytes; no other reply sets the header |
| Server.RootServesIndex | server.js:6-14 | "/" is answered from `index.html` as HTML |
| Server.HandleContentType | server.js:6-46 | a readable `stem.e` is served with 200 and the type its extension selects; `.jpeg` is served as HTML |
| Server.NoExtensionIsHtml | server.js:14-17 | a readable path without a `.` is served as HTML |
| Flows.SignedInAdminReachesAdminPage | js/admin.js:20-28 | an admin's sign-in session passes the admin page's check |
| Flows.GuestFailsAdminCheck | js/signin.js:161-170 | the guest session is turned away by the admin page |
| Flows.UserPageIgnoresCurrentUser | js/user.js:20 | writing `currentUser` never changes what the user page's check sees |
| Flows.LogoutKeepsCurrentUser | js/admin.js:215 | logging out leaves the `currentUser` session in place |
| Flows.SessionsDifferOnlyInName | js/signin.js:130-135 | the sign-in session of an account is its sign-up session without the name |
| Flows.SignedInAdminStopsAdminInit | js/admin.js:13-56 | on an admin page with an avatar, an admin's sign-in session passes the check but `init` throws at the missing name, while the same admin's sign-up session lets `init` return |

## Left out

- The DOM is not modelled: element creation, `innerHTML`, styles, scrolling, `alert` and the icon library. The messages the pages would show are returned as values instead.
- `setTimeout` delays and the upload Promise are not modelled. The upload, the sign-in redirect and the AI reply happen at once. So an upload records the domain selected when its batch is processed, not the one selected a second later. Chat.UserManager.SendMessage always puts the reply right after its own message. In the page each reply arrives 1.5 to 2.5 seconds later, so a second message can come before the first reply, and two replies can swap order.
- `Date.now()` ids are parameters of the methods. They are not assumed unique, and delete removes every record with the id.
- `Math.random()` is a real parameter in [0, 1), so floating-point rounding of `random * n` is not modelled.
- Timestamps (`timestamp`, `uploadedAt`, the chat time string) are not modelled.
- `JSON.parse`/`stringify` are not modelled. The storages are maps keyed by storage key, and the account list is a sequence. A stored value that is not valid JSON is outside the model.
- Admin.FormatFileSize: only the zero case is modelled (every other size gives None). Other sizes go through `Math.log`, `toFixed` and `parseFloat`, which are floating point.
- The avatar initial (`name.charAt(0).toUpperCase()`) is not computed, because it needs Unicode case mapping. Only whether it throws is modelled, by `Admin.InitCompletes`. Whether `admin.html` has a `.user-avatar` element is a parameter, since the page is not part of this model.
- The uploaded-files panel is assumed hidden when `admin.html` loads: `js/admin.js` never sets it at start-up, and the page is not part of this model. `Admin.AdminManager.Valid` and the constructor state this, and `ProcessFiles` and `DeleteFile` rely on it, so "the panel is shown exactly while the list is not empty" holds only under that assumption.
- The user page's avatar line (`#userAvatar`) throws in the same way for a session without a `name`, before the badge and instruction texts are written. `Chat.Banner` gives the texts for the case where it does not throw.
- Admin.AdminManager.DeleteFile: it is modelled as if the global `adminManager` had been assigned. That happens only when `init` returns (`Admin.InitCompletes`). On a page with the avatar, this means a session with a name, such as sign-up's. After sign-in, the delete buttons find no manager.
- Chat.DomainPool: domain names inherited from `Object.prototype` (such as "constructor") are treated as unknown. JavaScript would find a function there instead of a pool.
- Server.RequestPath: `path.join` normalisation is not modelled (`..` segments, repeated slashes), and neither is the serving directory prefix.
- Server.Extname follows Node's POSIX `path.extname`, including skipped trailing `/` and the `..` segment. The Windows rules are not modelled.
- The HTTP server, `fs.readFile` and the listening log lines are not modelled. The read result is an input.
- Strings holding a lone UTF-16 surrogate are outside the model. A Dafny `char` is a Unicode scalar value, but a JavaScript string read from an input field can hold an unpaired surrogate.
- `user.jsx` is not part of this model: it is React rendering only.

=== FILE: admin.dfy ===
/** The admin dashboard: the role check, the upload list with its type and size
    filter, delete-by-id, and whether the uploaded-files panel is shown. The upload
    delay is removed, so an accepted file is recorded at once; the `Date.now()` ids are
    given by the caller. */
module Admin {
  import opened Optional
  import opened Storage

  /** The five MIME types `processFiles` accepts. */
  const ALLOWED_TYPES := ["application/pdf",
                          "application/vnd.openxmlformats-officedocument.wordprocessingml.document",
                          "text/markdown", "image/png", "image/jpeg"]
  /** 10 MiB. */
  const MAX_SIZE := 10 * 1024 * 1024
  const NO_DOMAIN_ALERT := "Please select a domain before uploading files."

  /** What the page reads of a chosen file. */
  datatype FileInfo = FileInfo(name: string, size: nat, mimeType: string)

  /** A record of the upload list (its ISO `uploadedAt` is not modelled). */
  datatype UploadedFile = UploadedFile(id: int, name: string, size: nat, mimeType: string, domain: string)

  /** The fate of one file: the type check runs first, then the size check. */
  datatype Verdict = WrongType | TooLarge | Accepted

  function Check(f: FileInfo): (v: Verdict)
    ensures v == Accepted <==> f.mimeType in ALLOWED_TYPES && f.size <= MAX_SIZE
    ensures v == WrongType <==> f.mimeType !in ALLOWED_TYPES
  {
    if f.mimeType !in ALLOWED_TYPES then WrongType
    else if f.size > MAX_SIZE then TooLarge
    else Accepted
  }

  function TypeAlert(name: string): string {
    "File type not allowed: " + name + ". Please upload PDF, DOCX, MD, PNG, or JPG files."
  }

  function SizeAlert(name: string): string {
    "File too large: " + name + ". Maximum size is 10MB."
  }

  /** The record `uploadFile` resolves with. */
  function Record(f: FileInfo, id: int, domain: string): UploadedFile {
    UploadedFile(id, f.name, f.size, f.mimeType, domain)
  }

  /** The upload list after the first `n` files of a batch, starting from `prior`: each
      accepted file's record is appended in input order; file `k` gets id `ids[k]`. */
  function Uploads(prior: seq<UploadedFile>, files: seq<FileInfo>, ids: seq<int>, domain: string, n: nat): seq<UploadedFile>
    requires n <= |files| == |ids|
  {
    if n == 0 then prior
    else
      Uploads(prior, files, ids, domain, n - 1)
      + (if Check(files[n - 1]) == Accepted then [Record(files[n - 1], ids[n - 1], domain)] else [])
  }

  /** A batch only appends: the list after it is the list before it followed by the
      records of the batch alone. */
  lemma {:induction false} UploadsAppend(prior: seq<UploadedFile>, files: seq<FileInfo>, ids: seq<int>, domain: string, n: nat)
    requires n <= |files| == |ids|
    ensures Uploads(prior, files, ids, domain, n) == prior + Uploads([], files, ids, domain, n)
  {
    if n > 0 {
      UploadsAppend(prior, files, ids, domain, n - 1);
      var last := if Check(files[n - 1]) == Accepted then [Record(files[n - 1], ids[n - 1], domain)] else [];
      calc {
        Uploads(prior, files, ids, domain, n);
        Uploads(prior, files, ids, domain, n - 1) + last;
        (prior + Uploads([], files, ids, domain, n - 1)) + last;
        prior + (Uploads([], files, ids, domain, n - 1) + last);
        prior + Uploads([], files, ids, domain, n);
      }
    }
  }

  /** The alert one file raises, if any. */
  function AlertOf(f: FileInfo): seq<string> {
    match Check(f)
    case WrongType => [TypeAlert(f.name)]
    case TooLarge => [SizeAlert(f.name)]
    case Accepted => []
  }

  /** The alerts the first `n` files of a batch raise, in input order. */
  function Alerts(files: seq<FileInfo>, n: nat): seq<string>
    requires n <= |files|
  {
    if n == 0 then [] else Alerts(files, n - 1) + AlertOf(files[n - 1])
  }

  /** One more file of a type not allowed: its type alert, and no record. */
  lemma WrongTypeStep(prior: seq<UploadedFile>, files: seq<FileInfo>, ids: seq<int>, domain: string, i: nat)
    requires i < |files| == |ids| && files[i].mimeType !in ALLOWED_TYPES
    ensures Alerts(files, i + 1) == Alerts(files, i) + [TypeAlert(files[i].name)]
    ensures Uploads(prior, files, ids, domain, i + 1) == Uploads(prior, files, ids, domain, i)
  {
  }

  /** One more file of an allowed type but too large: its size alert, and no record. */
  lemma TooLargeStep(prior: seq<UploadedFile>, files: seq<FileInfo>, ids: seq<int>, domain: string, i: nat)
    requires i < |files| == |ids| && files[i].mimeType in ALLOWED_TYPES && files[i].size > MAX_SIZE
    ensures Alerts(files, i + 1) == Alerts(files, i) + [SizeAlert(files[i].name)]
    ensures Uploads(prior, files, ids, domain, i + 1) == Uploads(prior, files, ids, domain, i)
  {
  }

  /** One more file that passes both checks: no alert, and its record after the others. */
  lemma AcceptedStep(prior: seq<UploadedFile>, files: seq<FileInfo>, ids: seq<int>, domain: string, i: nat)
    requires i < |files| == |ids| && files[i].mimeType in ALLOWED_TYPES && files[i].size <= MAX_SIZE
    ensures Alerts(files, i + 1) == Alerts(files, i)
    ensures Uploads(prior, files, ids, domain, i + 1)
         == Uploads(prior, files, ids, domain, i) + [Record(files[i], ids[i], domain)]
  {
  }

  /** The files of a batch that pass both checks, in input order. */
  function AcceptedFiles(files: seq<FileInfo>): seq<FileInfo> {
    if files == [] then []
    else (if Check(files[0]) == Accepted then [files[0]] else []) + AcceptedFiles(files[1..])
  }

  /** The accepted files are exactly the files of the batch that pass both checks. */
  lemma {:induction false} AcceptedFilesMembers(files: seq<FileInfo>)
    ensures forall f :: f in AcceptedFiles(files) <==> f in files && Check(f) == Accepted
  {
    if files != [] {
      AcceptedFilesMembers(files[1..]);
      assert files == [files[0]] + files[1..];
    }
  }

  /** What a record says about the file it came from. */
  function FileOf(r: UploadedFile): FileInfo {
    FileInfo(r.name, r.size, r.mimeType)
  }

  function FilesOf(records: seq<UploadedFile>): seq<FileInfo> {
    if records == [] then [] else [FileOf(records[0])] + FilesOf(records[1..])
  }

  lemma {:induction false} FilesOfAppend(a: seq<UploadedFile>, b: seq<UploadedFile>)
    ensures FilesOf(a + b) == FilesOf(a) + FilesOf(b)
  {
    if a == [] {
      assert a + b == b;
    } else {
      var ab := a + b;
      assert ab[0] == a[0] && ab[1..] == a[1..] + b;
      FilesOfAppend(a[1..], b);
      calc {
        FilesOf(ab);
        [FileOf(a[0])] + FilesOf(ab[1..]);
        [FileOf(a[0])] + (FilesOf(a[1..]) + FilesOf(b));
        ([FileOf(a[0])] + FilesOf(a[1..])) + FilesOf(b);
      }
    }
  }

  lemma {:induction false} AcceptedFilesAppend(a: seq<FileInfo>, b: seq<FileInfo>)
    ensures AcceptedFiles(a + b) == AcceptedFiles(a) + AcceptedFiles(b)
  {
    if a == [] {
      assert a + b == b;
    } else {
      var ab := a + b;
      assert ab[0] == a[0] && ab[1..] == a[1..] + b;
      AcceptedFilesAppend(a[1..], b);
      var head := if Check(a[0]) == Accepted then [a[0]] else [];
      calc {
        AcceptedFiles(ab);
        head + AcceptedFiles(ab[1..]);
        head + (AcceptedFiles(a[1..]) + AcceptedFiles(b));
        (head + AcceptedFiles(a[1..])) + AcceptedFiles(b);
      }
    }
  }

  /** The first `n` files of a batch add exactly the accepted ones among them, in
      input order, each stamped with the domain selected for the batch. */
  lemma {:induction false} UploadsAreAcceptedFiles(files: seq<FileInfo>, ids: seq<int>, domain: string, n: nat)
    requires n <= |files| == |ids|
    ensures FilesOf(Uploads([], files, ids, domain, n)) == AcceptedFiles(files[..n])
    ensures forall r :: r in Uploads([], files, ids, domain, n) ==> r.domain == domain
  {
    UploadsFiles(files, ids, domain, n);
    UploadsInDomain(files, ids, domain, n);
  }

  lemma {:induction false} UploadsFiles(files: seq<FileInfo>, ids: seq<int>, domain: string, n: nat)
    requires n <= |files| == |ids|
    ensures FilesOf(Uploads([], files, ids, domain, n)) == AcceptedFiles(files[..n])
  {
    if n > 0 {
      var prior := Uploads([], files, ids, domain, n - 1);
      UploadsFiles(files, ids, domain, n - 1);
      LastUploadFiles(prior, files[n - 1], ids[n - 1], domain);
      AcceptedFilesOfPrefix(files, n);
    }
  }

  /** Appending the record of one file, if it is accepted, appends that file's share
      of the accepted files. */
  lemma LastUploadFiles(prior: seq<UploadedFile>, f: FileInfo, id: int, domain: string)
    ensures FilesOf(prior + if Check(f) == Accepted then [Record(f, id, domain)] else [])
      == FilesOf(prior) + AcceptedFiles([f])
  {
    var last := if Check(f) == Accepted then [Record(f, id, domain)] else [];
    FilesOfAppend(prior, last);
    OneFileUpload(f, id, domain);
  }

  /** The accepted files of the first n files are those of the first n - 1 followed by
      the n-th file's share. */
  lemma AcceptedFilesOfPrefix(files: seq<FileInfo>, n: nat)
    requires 0 < n <= |files|
    ensures AcceptedFiles(files[..n]) == AcceptedFiles(files[..n - 1]) + AcceptedFiles([files[n - 1]])
  {
    assert files[..n] == files[..n - 1] + [files[n - 1]];
    AcceptedFilesAppend(files[..n - 1], [files[n - 1]]);
  }

  lemma OneFileUpload(f: FileInfo, id: int, domain: string)
    ensures FilesOf(if Check(f) == Accepted then [Record(f, id, domain)] else []) == AcceptedFiles([f])
  {
    assert [f][1..] == [];
    var r := [Record(f, id, domain)];
    assert r[1..] == [];
    assert FilesOf(r) == [f];
  }

  lemma {:induction false} UploadsInDomain(files: seq<FileInfo>, ids: seq<int>, domain: string, n: nat)
    requires n <= |files| == |ids|
    ensures forall r :: r in Uploads([], files, ids, domain, n) ==> r.domain == domain
  {
    if n > 0 {
      UploadsInDomain(files, ids, domain, n - 1);
    }
  }

  lemma UploadsPassChecks(files: seq<FileInfo>, ids: seq<int>, domain: string, n: nat)
    requires n <= |files| == |ids|
    ensures forall r :: r in Uploads([], files, ids, domain, n) ==>
      r.mimeType in ALLOWED_TYPES && r.size <= MAX_SIZE && r.domain == domain
  {
    var records := Uploads([], files, ids, domain, n);
    UploadsAreAcceptedFiles(files, ids, domain, n);
    AcceptedFilesMembers(files[..n]);
    forall r | r in records
      ensures r.mimeType in ALLOWED_TYPES && r.size <= MAX_SIZE
    {
      FileInFilesOf(records, r);
      assert Check(FileOf(r)) == Accepted;
    }
  }

  lemma {:induction false} FileInFilesOf(records: seq<UploadedFile>, r: UploadedFile)
    requires r in records
    ensures FileOf(r) in FilesOf(records)
  {
    if records[0] != r {
      FileInFilesOf(records[1..], r);
    }
  }

  /** `uploadedFiles.filter(file => file.id !== fileId)`. */
  function RemoveId(records: seq<UploadedFile>, id: int): seq<UploadedFile> {
    if records == [] then []
    else (if records[0].id != id then [records[0]] else []) + RemoveId(records[1..], id)
  }

  lemma {:induction false} RemoveIdAppend(a: seq<UploadedFile>, b: seq<UploadedFile>, id: int)
    ensures RemoveId(a + b, id) == RemoveId(a, id) + RemoveId(b, id)
  {
    if a == [] {
      assert a + b == b;
    } else {
      var ab := a + b;
      assert ab[0] == a[0] && ab[1..] == a[1..] + b;
      RemoveIdAppend(a[1..], b, id);
      var head := if a[0].id != id then [a[0]] else [];
      calc {
        RemoveId(ab, id);
        head + RemoveId(ab[1..], id);
        head + (RemoveId(a[1..], id) + RemoveId(b, id));
        (head + RemoveId(a[1..], id)) + RemoveId(b, id);
      }
    }
  }

  lemma {:induction false} RemoveIdMembers(a: seq<UploadedFile>, id: int)
    ensures forall r :: r in RemoveId(a, id) <==> r in a && r.id != id
  {
    if a != [] {
      RemoveIdMembers(a[1..], id);
      assert a == [a[0]] + a[1..];
    }
  }

  lemma {:induction false} RemoveIdAbsent(a: seq<UploadedFile>, id: int)
    requires forall r :: r in a ==> r.id != id
    ensures RemoveId(a, id) == a
  {
    if a != [] {
      assert a[0] in a;
      assert forall r :: r in a[1..] ==> r in a;
      RemoveIdAbsent(a[1..], id);
      assert a == [a[0]] + a[1..];
    }
  }

  /** Delete removes every record with the id, keeps every other record, and keeps the
      kept records in their relative order (it distributes over concatenation). */
  lemma RemoveIdSpec(a: seq<UploadedFile>, b: seq<UploadedFile>, id: int)
    ensures forall r :: r in RemoveId(a, id) <==> r in a && r.id != id
    ensures RemoveId(a + b, id) == RemoveId(a, id) + RemoveId(b, id)
    ensures (forall r :: r in a ==> r.id != id) ==> RemoveId(a, id) == a
  {
    RemoveIdMembers(a, id);
    RemoveIdAppend(a, b, id);
    if forall r :: r in a ==> r.id != id {
      RemoveIdAbsent(a, id);
    }
  }

  /** `formatFileSize` for the case the model covers: zero bytes. Other sizes go through
      floating-point logarithms and rounding, which are not modelled (None). */
  function FormatFileSize(bytes: nat): (shown: Option<string>)
    ensures bytes == 0 <==> shown == Some("0 Bytes")
  {
    if bytes == 0 then Some("0 Bytes") else None
  }

  /** Whether `init` returns. When the page has a `.user-avatar` element and a session
      was kept, `updateUI` reads the first character of the session's `name`; a session
      without one makes `updateUI`, `init` and so the constructor throw, and the page's
      global `adminManager`, which the delete buttons call, is never assigned. */
  predicate InitCompletes(hasAvatar: bool, userData: Option<Session>) {
    !hasAvatar || userData.None? || userData.value.name.Some?
  }

  class AdminManager {
    var uploadedFiles: seq<UploadedFile>
    /** The upload domain chosen in the select; "" until one is chosen. */
    var selectedDomain: string
    var userData: Option<Session>
    /** Whether the uploaded-files panel is displayed. */
    var listShown: bool

    /** The panel is displayed exactly when the list is not empty, given that the page
        loads with it hidden. */
    ghost predicate Valid()
      reads this
    {
      listShown == (uploadedFiles != [])
    }

    constructor ()
      ensures Valid() && uploadedFiles == [] && selectedDomain == "" && userData == None
    {
      uploadedFiles, selectedDomain, userData, listShown := [], "", None, false;
    }

    /** `checkAuthentication`: only a `currentUser` session whose role is "admin" stays;
        anything else sends the browser to the sign-up page. */
    method CheckAuthentication(items: map<string, Session>) returns (redirect: Option<string>)
      modifies this`userData
      ensures var s := PageSession(items, CURRENT_USER, "admin");
        if s.Some? then redirect == None && userData == s
        else redirect == Some("signup.html") && userData == old(userData)
    {
      var s := PageSession(items, CURRENT_USER, "admin");
      if s.None? {
        return Some("signup.html");
      }
      userData := s;
      redirect := None;
    }

    /** The domain select's change handler. */
    method SelectDomain(domain: string)
      modifies this`selectedDomain
      ensures selectedDomain == domain
    {
      selectedDomain := domain;
    }

    /** `uploadFile` with the delay removed: the record is appended and the panel shown. */
    method UploadFile(file: FileInfo, id: int)
      modifies this`uploadedFiles, this`listShown
      ensures Valid()
      ensures uploadedFiles == old(uploadedFiles) + [Record(file, id, selectedDomain)]
    {
      uploadedFiles := uploadedFiles + [Record(file, id, selectedDomain)];
      listShown := true;
    }

    /** `processFiles`: nothing without a selected domain; otherwise each file is checked
        for its type, then its size, and uploaded if it passes both. File `k` of the batch
        gets id `ids[k]`. */
    method ProcessFiles(files: seq<FileInfo>, ids: seq<int>) returns (alerts: seq<string>)
      requires Valid() && |ids| == |files|
      modifies this`uploadedFiles, this`listShown
      ensures Valid()
      ensures selectedDomain == "" ==> alerts == [NO_DOMAIN_ALERT] && uploadedFiles == old(uploadedFiles)
      ensures selectedDomain != "" ==>
        && alerts == Alerts(files, |files|)
        && uploadedFiles == Uploads(old(uploadedFiles), files, ids, selectedDomain, |files|)
    {
      if selectedDomain == "" {
        return [NO_DOMAIN_ALERT];
      }
      alerts := [];
      ghost var start := uploadedFiles;
      for i := 0 to |files|
        invariant Valid()
        invariant alerts == Alerts(files, i)
        invariant uploadedFiles == Uploads(start, files, ids, selectedDomain, i)
      {
        var file := files[i];
        if file.mimeType !in ALLOWED_TYPES {
          WrongTypeStep(start, files, ids, selectedDomain, i);
          alerts := alerts + [TypeAlert(file.name)];
          continue;
        }
        if file.size > MAX_SIZE {
          TooLargeStep(start, files, ids, selectedDomain, i);
          alerts := alerts + [SizeAlert(file.name)];
          continue;
        }
        AcceptedStep(start, files, ids, selectedDomain, i);
        UploadFile(file, ids[i]);
      }
    }

    /** `deleteFile`: filter the list; hide the panel when it becomes empty. */
    method DeleteFile(id: int)
      requires Valid()
      modifies this`uploadedFiles, this`listShown
      ensures Valid()
      ensures uploadedFiles == RemoveId(old(uploadedFiles), id)
      ensures listShown == (if uploadedFiles == [] then false else old(listShown))
    {
      uploadedFiles := RemoveId(uploadedFiles, id);
      if |uploadedFiles| == 0 {
        listShown := false;
      }
    }

    /** `logout`: removes the `nexusUser` item (not `currentUser`) and goes to sign-up. */
    method Logout(store: BrowserStorage) returns (page: string)
      modifies store
      ensures page == "signup.html"
      ensures store.session == old(store.session) - {NEXUS_USER}
      ensures store.users == old(store.users) && store.local == old(store.local)
    {
      store.session := store.session - {NEXUS_USER};
      page := "signup.html";
    }
  }
}

=== FILE: chat.dfy ===
/** The user chat page: the role check, the message log, the HTML-escaping formatter,
    the canned responses and the badge text. The reply delay is removed, so the reply
    is appended at once; `Math.random()` is a parameter in [0, 1) and the `Date.now()`
    ids are given by the caller. */
module Chat {
  import opened Optional
  import opened Text
  import opened Storage

  datatype Sender = UserSender | AiSender

  /** A log entry (its `Date` timestamp is not modelled). */
  datatype Message = Message(id: int, sender: Sender, content: string)

  // ---------------------------------------------------------------- formatting

  /** `s.replace(/c/g, rep)` for a single-character pattern. */
  function ReplaceAll(s: string, c: char, rep: string): (r: string)
    ensures c !in rep ==> c !in r
  {
    if s == [] then [] else (if s[0] == c then rep else [s[0]]) + ReplaceAll(s[1..], c, rep)
  }

  /** `formatMessage`: the four global replacements, in the source's order. */
  function FormatMessage(content: string): string {
    var amp := ReplaceAll(content, '&', "&amp;");
    var lt := ReplaceAll(amp, '<', "&lt;");
    var gt := ReplaceAll(lt, '>', "&gt;");
    ReplaceAll(gt, '\n', "<br>")
  }

  /** The per-character reading of the formatter. */
  function EscapeChar(c: char): string {
    if c == '&' then "&amp;"
    else if c == '<' then "&lt;"
    else if c == '>' then "&gt;"
    else if c == '\n' then "<br>"
    else [c]
  }

  function EscapeEach(s: string): string {
    if s == [] then [] else EscapeChar(s[0]) + EscapeEach(s[1..])
  }

  lemma {:induction false} ReplaceAllAppend(a: string, b: string, c: char, rep: string)
    ensures ReplaceAll(a + b, c, rep) == ReplaceAll(a, c, rep) + ReplaceAll(b, c, rep)
  {
    if a == [] {
      assert a + b == b;
    } else {
      var ab := a + b;
      assert ab[0] == a[0] && ab[1..] == a[1..] + b;
      ReplaceAllAppend(a[1..], b, c, rep);
      var head := if a[0] == c then rep else [a[0]];
      calc {
        ReplaceAll(ab, c, rep);
        head + ReplaceAll(ab[1..], c, rep);
        head + (ReplaceAll(a[1..], c, rep) + ReplaceAll(b, c, rep));
        (head + ReplaceAll(a[1..], c, rep)) + ReplaceAll(b, c, rep);
      }
    }
  }

  lemma {:induction false} ReplaceAllAbsent(s: string, c: char, rep: string)
    requires c !in s
    ensures ReplaceAll(s, c, rep) == s
  {
    if s != [] {
      assert forall k :: 0 <= k < |s[1..]| ==> s[1..][k] == s[k + 1];
      ReplaceAllAbsent(s[1..], c, rep);
    }
  }

  lemma ReplaceAllSingle(c: char, ch: char, rep: string)
    ensures ReplaceAll([c], ch, rep) == if c == ch then rep else [c]
  {
    assert [c][0] == c && [c][1..] == [];
  }

  /** The later replacements leave an escape alone when it holds none of their
      characters. */
  lemma LaterStepsKeep(e: string)
    requires '<' !in e && '>' !in e && '\n' !in e
    ensures ReplaceAll(ReplaceAll(ReplaceAll(e, '<', "&lt;"), '>', "&gt;"), '\n', "<br>") == e
  {
    ReplaceAllAbsent(e, '<', "&lt;");
    ReplaceAllAbsent(e, '>', "&gt;");
    ReplaceAllAbsent(e, '\n', "<br>");
  }

  /** The chain on a single character gives that character's escape. */
  lemma FormatOneChar(c: char)
    ensures FormatMessage([c]) == EscapeChar(c)
  {
    ReplaceAllSingle(c, '&', "&amp;");
    if c == '&' {
      LaterStepsKeep("&amp;");
    } else {
      ReplaceAllSingle(c, '<', "&lt;");
      if c == '<' {
        ReplaceAllAbsent("&lt;", '>', "&gt;");
        ReplaceAllAbsent("&lt;", '\n', "<br>");
      } else {
        ReplaceAllSingle(c, '>', "&gt;");
        if c == '>' {
          ReplaceAllAbsent("&gt;", '\n', "<br>");
        } else {
          ReplaceAllSingle(c, '\n', "<br>");
        }
      }
    }
  }

  /** The chained replacements are the per-character map: `&` to `&amp;`, `<` to
      `&lt;`, `>` to `&gt;`, a line feed to `<br>`, every other character unchanged. */
  lemma {:induction false} FormatIsPerCharacter(s: string)
    ensures FormatMessage(s) == EscapeEach(s)
  {
    if s != [] {
      var head, tail := [s[0]], s[1..];
      assert s == head + tail;
      var amp := ReplaceAll(s, '&', "&amp;");
      ReplaceAllAppend(head, tail, '&', "&amp;");
      var ampH, ampT := ReplaceAll(head, '&', "&amp;"), ReplaceAll(tail, '&', "&amp;");
      ReplaceAllAppend(ampH, ampT, '<', "&lt;");
      var ltH, ltT := ReplaceAll(ampH, '<', "&lt;"), ReplaceAll(ampT, '<', "&lt;");
      ReplaceAllAppend(ltH, ltT, '>', "&gt;");
      var gtH, gtT := ReplaceAll(ltH, '>', "&gt;"), ReplaceAll(ltT, '>', "&gt;");
      ReplaceAllAppend(gtH, gtT, '\n', "<br>");
      assert FormatMessage(s) == FormatMessage(head) + FormatMessage(tail);
      FormatOneChar(s[0]);
      FormatIsPerCharacter(tail);
    }
  }

  /** Every raw `<` opens a `<br>`. */
  ghost predicate LtOpensBreak(e: string) {
    forall k :: 0 <= k < |e| && e[k] == '<' ==>
      k + 3 < |e| && e[k + 1] == 'b' && e[k + 2] == 'r' && e[k + 3] == '>'
  }

  /** Every raw `>` closes a `<br>`. */
  ghost predicate GtClosesBreak(e: string) {
    forall k :: 0 <= k < |e| && e[k] == '>' ==>
      3 <= k && e[k - 3] == '<' && e[k - 2] == 'b' && e[k - 1] == 'r'
  }

  ghost predicate TagsAreBreaks(e: string) {
    LtOpensBreak(e) && GtClosesBreak(e)
  }

  lemma LtOpensBreakAppend(a: string, b: string)
    requires LtOpensBreak(a) && LtOpensBreak(b)
    ensures LtOpensBreak(a + b)
  {
    var e := a + b;
    forall k | 0 <= k < |e| && e[k] == '<'
      ensures k + 3 < |e| && e[k + 1] == 'b' && e[k + 2] == 'r' && e[k + 3] == '>'
    {
      if k < |a| {
        assert a[k] == '<';
        assert e[k + 1] == a[k + 1] && e[k + 2] == a[k + 2] && e[k + 3] == a[k + 3];
      } else {
        var m := k - |a|;
        assert b[m] == '<';
        assert e[k + 1] == b[m + 1] && e[k + 2] == b[m + 2] && e[k + 3] == b[m + 3];
      }
    }
  }

  lemma GtClosesBreakAppend(a: string, b: string)
    requires GtClosesBreak(a) && GtClosesBreak(b)
    ensures GtClosesBreak(a + b)
  {
    var e := a + b;
    forall k | 0 <= k < |e| && e[k] == '>'
      ensures 3 <= k && e[k - 3] == '<' && e[k - 2] == 'b' && e[k - 1] == 'r'
    {
      if k < |a| {
        assert a[k] == '>';
        assert e[k - 3] == a[k - 3] && e[k - 2] == a[k - 2] && e[k - 1] == a[k - 1];
      } else {
        var m := k - |a|;
        assert b[m] == '>';
        assert e[k - 3] == b[m - 3] && e[k - 2] == b[m - 2] && e[k - 1] == b[m - 1];
      }
    }
  }

  lemma TagsAreBreaksAppend(a: string, b: string)
    requires TagsAreBreaks(a) && TagsAreBreaks(b)
    ensures TagsAreBreaks(a + b)
  {
    LtOpensBreakAppend(a, b);
    GtClosesBreakAppend(a, b);
  }

  /** One escaped character holds no line feed, and its `<` and `>` belong to a `<br>`. */
  lemma EscapeCharIsSafe(c: char)
    ensures '\n' !in EscapeChar(c) && TagsAreBreaks(EscapeChar(c))
  {
    var h := EscapeChar(c);
    if c == '&' {
      assert h == "&amp;";
    } else if c == '<' {
      assert h == "&lt;";
    } else if c == '>' {
      assert h == "&gt;";
    } else if c == '\n' {
      assert h == "<br>" && h[0] == '<' && h[3] == '>';
      assert forall k :: 0 <= k < 4 && h[k] == '<' ==> k == 0;
      assert forall k :: 0 <= k < 4 && h[k] == '>' ==> k == 3;
    } else {
      assert h == [c];
    }
  }

  lemma {:induction false} EscapeEachIsSafe(s: string)
    ensures '\n' !in EscapeEach(s) && TagsAreBreaks(EscapeEach(s))
  {
    if s != [] {
      EscapeEachIsSafe(s[1..]);
      var h, rest := EscapeChar(s[0]), EscapeEach(s[1..]);
      EscapeCharIsSafe(s[0]);
      TagsAreBreaksAppend(h, rest);
      assert EscapeEach(s) == h + rest;
    }
  }

  /** The formatted text has no line feed, and its only raw `<` and `>` are the ones of
      the `<br>` tags it inserts. */
  lemma FormattedIsSafe(s: string)
    ensures '\n' !in FormatMessage(s) && TagsAreBreaks(FormatMessage(s))
  {
    FormatIsPerCharacter(s);
    EscapeEachIsSafe(s);
  }

  /** Reads the formatter's output back. */
  function Unescape(e: string): string
    decreases |e|
  {
    if e == [] then []
    else if "&amp;" <= e then ['&'] + Unescape(e[5..])
    else if "&lt;" <= e then ['<'] + Unescape(e[4..])
    else if "&gt;" <= e then ['>'] + Unescape(e[4..])
    else if "<br>" <= e then ['\n'] + Unescape(e[4..])
    else [e[0]] + Unescape(e[1..])
  }

  lemma UnescapeStep(c: char, rest: string)
    ensures Unescape(EscapeChar(c) + rest) == [c] + Unescape(rest)
  {
    var h := EscapeChar(c);
    var e := h + rest;
    assert e[..|h|] == h && e[|h|..] == rest;
    if c == '&' {
      assert "&amp;" <= e;
    } else if c == '<' {
      assert e[1] == 'l' && !("&amp;" <= e) && "&lt;" <= e;
    } else if c == '>' {
      assert e[1] == 'g' && !("&amp;" <= e) && !("&lt;" <= e) && "&gt;" <= e;
    } else if c == '\n' {
      assert e[0] == '<' && !("&amp;" <= e) && !("&lt;" <= e) && !("&gt;" <= e) && "<br>" <= e;
    } else {
      assert e[0] == c && e[1..] == rest;
      assert !("&amp;" <= e) && !("&lt;" <= e) && !("&gt;" <= e) && !("<br>" <= e);
    }
  }

  /** Formatting loses nothing: distinct messages are shown as distinct text. */
  lemma {:induction false} UnescapeFormat(s: string)
    ensures Unescape(FormatMessage(s)) == s
  {
    FormatIsPerCharacter(s);
    UnescapeEscapeEach(s);
  }

  lemma {:induction false} UnescapeEscapeEach(s: string)
    ensures Unescape(EscapeEach(s)) == s
  {
    if s != [] {
      UnescapeStep(s[0], EscapeEach(s[1..]));
      UnescapeEscapeEach(s[1..]);
    }
  }

  // ---------------------------------------------------------------- responses

  const GENERAL_RESPONSES := [
    "I can help you with that. Based on resources across all domains, here's what I found...",
    "Searching through organizational knowledge... Here's the most relevant information:",
    "I've accessed multiple domain resources to provide you with comprehensive information:",
    "Drawing from various organizational domains, I can provide this insight:"
  ]

  const DOMAIN_RESPONSES: map<string, seq<string>> := map[
    "Legal" := [
      "Based on legal resources and compliance documents:",
      "From the legal knowledge base:",
      "According to organizational legal guidelines:"
    ],
    "Medical" := [
      "Based on medical protocols and research data:",
      "From healthcare documentation:",
      "According to medical guidelines and protocols:"
    ],
    "Technology" := [
      "Based on technical documentation and system architecture:",
      "From IT resources and documentation:",
      "According to technical specifications:"
    ]
  ]

  const FALLBACK_RESPONSES := ["Based on available resources:"]

  const GENERAL_SUFFIX := "\n\n[Simulated response - In production, this would query the actual knowledge base]"
  const DOMAIN_SUFFIX := "\n\n[Simulated domain-specific response - In production, this would query the domain's knowledge base]"

  /** Scaling by a factor in [0, 1) stays in [0, m). */
  lemma ScaledBelow(random: real, m: real)
    requires 0.0 <= random < 1.0 && m > 0.0
    ensures 0.0 <= random * m < m
  {
    var gap := 1.0 - random;
    assert gap > 0.0;
    assert gap * m > 0.0;
    assert m - random * m == gap * m;
  }

  /** `Math.floor(random * n)` for `random` in [0, 1): always an index below `n`. */
  function PickIndex(random: real, n: nat): (i: nat)
    requires 0.0 <= random < 1.0 && n > 0
    ensures i < n
  {
    ScaledBelow(random, n as real);
    var x := random * n as real;
    assert x < n as real;
    assert x.Floor as real <= x;
    assert x.Floor < n;
    x.Floor
  }

  /** `domainResponses[domain] || [fallback]`; a `null` domain finds no pool. */
  function DomainPool(domain: Option<string>): (pool: seq<string>)
    ensures |pool| > 0
    ensures domain.Some? && domain.value in DOMAIN_RESPONSES ==> pool == DOMAIN_RESPONSES[domain.value]
    ensures !(domain.Some? && domain.value in DOMAIN_RESPONSES) ==> pool == FALLBACK_RESPONSES
  {
    if domain.Some? && domain.value in DOMAIN_RESPONSES then DOMAIN_RESPONSES[domain.value]
    else FALLBACK_RESPONSES
  }

  /** `generateGeneralResponse`. */
  function GeneralResponse(random: real): (r: string)
    requires 0.0 <= random < 1.0
    ensures exists i :: 0 <= i < |GENERAL_RESPONSES| && r == GENERAL_RESPONSES[i] + GENERAL_SUFFIX
  {
    GENERAL_RESPONSES[PickIndex(random, |GENERAL_RESPONSES|)] + GENERAL_SUFFIX
  }

  /** `generateDomainResponse`. */
  function DomainResponse(domain: Option<string>, random: real): (r: string)
    requires 0.0 <= random < 1.0
    ensures exists i :: 0 <= i < |DomainPool(domain)| && r == DomainPool(domain)[i] + DOMAIN_SUFFIX
  {
    var pool := DomainPool(domain);
    pool[PickIndex(random, |pool|)] + DOMAIN_SUFFIX
  }

  /** The pool choice in `simulateAIResponse`: the general pool for "general", the
      domain's own pool otherwise. */
  function AIResponse(domain: Option<string>, random: real): string
    requires 0.0 <= random < 1.0
  {
    if domain == Some("general") then GeneralResponse(random) else DomainResponse(domain, random)
  }

  /** Every reply is a pool entry followed by the fixed suffix: the general pool for
      "general", the domain's pool for a known domain, the one fallback otherwise. */
  lemma AIResponseSpec(domain: Option<string>, random: real)
    requires 0.0 <= random < 1.0
    ensures domain == Some("general") ==>
      exists i :: 0 <= i < |GENERAL_RESPONSES| && AIResponse(domain, random) == GENERAL_RESPONSES[i] + GENERAL_SUFFIX
    ensures domain != Some("general") && domain.Some? && domain.value in DOMAIN_RESPONSES ==>
      exists i :: 0 <= i < |DOMAIN_RESPONSES[domain.value]|
        && AIResponse(domain, random) == DOMAIN_RESPONSES[domain.value][i] + DOMAIN_SUFFIX
    ensures !(domain.Some? && domain.value in DOMAIN_RESPONSES) && domain != Some("general") ==>
      AIResponse(domain, random) == "Based on available resources:" + DOMAIN_SUFFIX
  {
    if domain == Some("general") {
      var i := PickIndex(random, |GENERAL_RESPONSES|);
      assert AIResponse(domain, random) == GENERAL_RESPONSES[i] + GENERAL_SUFFIX;
    } else if domain.Some? && domain.value in DOMAIN_RESPONSES {
      var pool := DOMAIN_RESPONSES[domain.value];
      var i := PickIndex(random, |pool|);
      assert AIResponse(domain, random) == pool[i] + DOMAIN_SUFFIX;
    }
  }

  // ---------------------------------------------------------------- header

  const GENERAL_BADGE := "\U{1F30D} General Access"
  const LOCK := '\U{1F512}'

  /** The texts `updateUI` puts on the page once its avatar line has not thrown (on a
      page with `#userAvatar`, a session without a `name` throws before the badge). */
  datatype Banner = Banner(badge: string, badgeClass: string, instruction: string, placeholder: string)

  /** How a template literal prints the session's domain (`null` prints as "null"). */
  function DomainText(domain: Option<string>): string {
    if domain.Some? then domain.value else "null"
  }

  function BannerFor(domain: Option<string>): Banner {
    if domain == Some("general") then
      Banner(GENERAL_BADGE, "badge general-badge",
             "You have access to resources across all organizational domains.",
             "Ask anything across all domains...")
    else
      var d := DomainText(domain);
      Banner([LOCK] + " " + d + " Domain", "badge",
             "I am locked to the " + d + " knowledge base provided by your Admin.",
             "Ask about " + d + "...")
  }

  /** The badge reads "🌍 General Access" exactly for the "general" domain, and
      "🔒 <domain> Domain" for every other one. */
  lemma BadgeSpec(domain: Option<string>)
    ensures BannerFor(domain).badge == GENERAL_BADGE <==> domain == Some("general")
    ensures domain != Some("general") ==> BannerFor(domain).badge == [LOCK] + " " + DomainText(domain) + " Domain"
  {
    if domain != Some("general") {
      assert BannerFor(domain).badge[0] == LOCK;
      assert GENERAL_BADGE[0] != LOCK;
    }
  }

  // ---------------------------------------------------------------- the page

  class UserManager {
    var messages: seq<Message>
    var userData: Option<Session>

    constructor ()
      ensures messages == [] && userData == None
    {
      messages, userData := [], None;
    }

    /** `checkAuthentication`: only a `nexusUser` session whose role is "user" stays. */
    method CheckAuthentication(items: map<string, Session>) returns (redirect: Option<string>)
      modifies this`userData
      ensures var s := PageSession(items, NEXUS_USER, "user");
        if s.Some? then redirect == None && userData == s
        else redirect == Some("signup.html") && userData == old(userData)
    {
      var s := PageSession(items, NEXUS_USER, "user");
      if s.None? {
        return Some("signup.html");
      }
      userData := s;
      redirect := None;
    }

    /** `addMessage`: one entry at the end of the log. */
    method AddMessage(sender: Sender, content: string, id: int)
      modifies this`messages
      ensures messages == old(messages) + [Message(id, sender, content)]
    {
      messages := messages + [Message(id, sender, content)];
    }

    /** The reply callback of `simulateAIResponse`. Without a session the callback
        throws on `this.userData.domain` and adds nothing. */
    method SimulateAIResponse(random: real, id: int)
      requires 0.0 <= random < 1.0
      modifies this`messages
      ensures messages == old(messages) +
        (if userData.Some? then [Message(id, AiSender, AIResponse(userData.value.domain, random))] else [])
    {
      if userData.Some? {
        AddMessage(AiSender, AIResponse(userData.value.domain, random), id);
      }
    }

    /** `sendMessage`: a message that is empty after trimming is ignored; otherwise the
        trimmed message is logged and the reply follows. */
    method SendMessage(input: string, messageId: int, replyId: int, random: real) returns (sent: bool)
      requires 0.0 <= random < 1.0
      modifies this`messages
      ensures var message := Trim(input);
        && sent == (message != [])
        && messages == old(messages) +
          (if message == [] then []
           else [Message(messageId, UserSender, message)]
                + (if userData.Some? then [Message(replyId, AiSender, AIResponse(userData.value.domain, random))] else []))
    {
      var message := Trim(input);
      if message == [] {
        return false;
      }
      AddMessage(UserSender, message, messageId);
      SimulateAIResponse(random, replyId);
      sent := true;
    }

    /** `logout`: removes the `nexusUser` item and goes to sign-up. */
    method Logout(store: BrowserStorage) returns (page: string)
      modifies store
      ensures page == "signup.html"
      ensures store.session == old(store.session) - {NEXUS_USER}
      ensures store.users == old(store.users) && store.local == old(store.local)
    {
      store.session := store.session - {NEXUS_USER};
      page := "signup.html";
    }
  }
}

=== FILE: email.dfy ===
/** The e-mail check that the sign-up and sign-in pages share: the regular expression
    `^[^\s@]+@[^\s@]+\.[^\s@]+$` applied to the trimmed input. */
module Email {
  import opened Text

  /** The message both forms show when the check fails. */
  const INVALID_EMAIL := "Please enter a valid email address."

  /** A character that the class `[^\s@]` matches. */
  predicate Plain(c: char) {
    !IsWhitespace(c) && c != '@'
  }

  predicate AllPlain(s: string) {
    forall k :: 0 <= k < |s| ==> Plain(s[k])
  }

  /** The first index of `c` in `s`, or `|s|` when there is none. */
  function IndexOf(s: string, c: char): (i: nat)
    ensures i <= |s|
    ensures i < |s| ==> s[i] == c
    ensures forall k :: 0 <= k < i ==> s[k] != c
  {
    if s == [] then 0 else if s[0] == c then 0 else 1 + IndexOf(s[1..], c)
  }

  /** The text after the first '@' (empty when there is no '@'). */
  function AfterAt(s: string): string {
    var i := IndexOf(s, '@');
    if i < |s| then s[i + 1..] else []
  }

  /** `s.split('@')[0]`: the text before the first '@', or all of `s` when there is none. */
  function LocalPart(s: string): (r: string)
    ensures r <= s && '@' !in r
    ensures |r| < |s| ==> s[|r|] == '@'
  {
    s[..IndexOf(s, '@')]
  }

  /** A '.' that is neither the first nor the last character. */
  predicate HasInnerDot(s: string) {
    exists k :: 0 < k < |s| - 1 && s[k] == '.'
  }

  /** `/^[^\s@]+@[^\s@]+\.[^\s@]+$/.test(s)`. No run of the pattern can hold an '@',
      so the only candidate for the pattern's '@' is the first one. */
  predicate IsValidEmail(s: string) {
    var i := IndexOf(s, '@');
    0 < i < |s| && AllPlain(s[..i]) && AllPlain(s[i + 1..]) && HasInnerDot(s[i + 1..])
  }

  /** The meaning of the regular expression: the whole string splits into a plain run,
      '@', a plain run, '.', and a plain run, none of them empty. */
  ghost predicate MatchesEmailPattern(s: string) {
    exists at, dot :: 0 < at && at + 1 < dot && dot + 1 < |s| && s[at] == '@' && s[dot] == '.'
                   && AllPlain(s[..at]) && AllPlain(s[at + 1..dot]) && AllPlain(s[dot + 1..])
  }

  lemma SeparatorsAreNotWhitespace()
    ensures !IsWhitespace('@') && !IsWhitespace('.')
  {
  }

  lemma AllPlainSlice(s: string, i: nat, j: nat)
    requires AllPlain(s) && i <= j <= |s|
    ensures AllPlain(s[i..j])
  {
    var t := s[i..j];
    forall m | 0 <= m < |t| ensures Plain(t[m]) { assert t[m] == s[i + m]; }
  }

  lemma AllPlainJoin(a: string, c: char, b: string)
    requires AllPlain(a) && Plain(c) && AllPlain(b)
    ensures AllPlain(a + [c] + b)
  {
    var t := a + [c] + b;
    forall m | 0 <= m < |t| ensures Plain(t[m]) {
      if m < |a| { assert t[m] == a[m]; } else if m > |a| { assert t[m] == b[m - |a| - 1]; }
    }
  }

  /** The check accepts exactly the strings the regular expression matches. */
  lemma EmailMatchesPattern(s: string)
    ensures IsValidEmail(s) <==> MatchesEmailPattern(s)
  {
    if IsValidEmail(s) {
      ValidEmailMatches(s);
    }
    if MatchesEmailPattern(s) {
      var at, dot :| 0 < at && at + 1 < dot && dot + 1 < |s| && s[at] == '@' && s[dot] == '.'
                  && AllPlain(s[..at]) && AllPlain(s[at + 1..dot]) && AllPlain(s[dot + 1..]);
      MatchIsValid(s, at, dot);
    }
  }

  lemma ValidEmailMatches(s: string)
    requires IsValidEmail(s)
    ensures MatchesEmailPattern(s)
  {
    var i := IndexOf(s, '@');
    var r := s[i + 1..];
    var k :| 0 < k < |r| - 1 && r[k] == '.';
    var dot := i + 1 + k;
    assert s[i + 1..dot] == r[..k];
    assert s[dot + 1..] == r[k + 1..];
    AllPlainSlice(r, 0, k);
    AllPlainSlice(r, k + 1, |r|);
    assert r[k + 1..|r|] == r[k + 1..];
    assert s[i] == '@' && s[dot] == '.';
  }

  lemma MatchIsValid(s: string, at: nat, dot: nat)
    requires 0 < at && at + 1 < dot && dot + 1 < |s| && s[at] == '@' && s[dot] == '.'
    requires AllPlain(s[..at]) && AllPlain(s[at + 1..dot]) && AllPlain(s[dot + 1..])
    ensures IsValidEmail(s)
  {
    var i := IndexOf(s, '@');
    assert i == at;
    var r := s[at + 1..];
    assert r == s[at + 1..dot] + [s[dot]] + s[dot + 1..];
    AllPlainJoin(s[at + 1..dot], s[dot], s[dot + 1..]);
    assert r[dot - at - 1] == '.';
  }

  /** How many times `c` occurs in `s`. */
  function CountOf(s: string, c: char): nat {
    if s == [] then 0 else (if s[0] == c then 1 else 0) + CountOf(s[1..], c)
  }

  lemma {:induction false} CountOfZero(s: string, c: char)
    ensures CountOf(s, c) == 0 <==> c !in s
  {
    if s != [] {
      CountOfZero(s[1..], c);
      assert s == [s[0]] + s[1..];
    }
  }

  /** Counting from the first occurrence of `c` on. */
  lemma {:induction false} CountFromFirst(s: string, c: char)
    requires IndexOf(s, c) < |s|
    ensures CountOf(s, c) == 1 + CountOf(s[IndexOf(s, c) + 1..], c)
  {
    if s[0] != c {
      CountFromFirst(s[1..], c);
      assert s[1..][IndexOf(s[1..], c) + 1..] == s[IndexOf(s, c) + 1..];
    }
  }

  lemma PlainSidesHaveNoWhitespace(s: string, i: nat)
    requires i < |s| && s[i] == '@'
    requires AllPlain(s[..i]) && AllPlain(s[i + 1..])
    ensures NoWhitespace(s) && '@' !in s[i + 1..]
  {
    SeparatorsAreNotWhitespace();
    var before, after := s[..i], s[i + 1..];
    forall m | 0 <= m < |s| ensures !IsWhitespace(s[m]) {
      if m < i {
        assert s[m] == before[m] && Plain(before[m]);
      } else if m > i {
        assert s[m] == after[m - i - 1] && Plain(after[m - i - 1]);
      }
    }
    forall m | 0 <= m < |after| ensures after[m] != '@' {
      assert Plain(after[m]);
    }
  }

  lemma NoWhitespaceSidesArePlain(s: string)
    requires IndexOf(s, '@') < |s|
    requires NoWhitespace(s) && '@' !in s[IndexOf(s, '@') + 1..]
    ensures AllPlain(s[..IndexOf(s, '@')]) && AllPlain(s[IndexOf(s, '@') + 1..])
  {
    var i := IndexOf(s, '@');
    var before, after := s[..i], s[i + 1..];
    forall m | 0 <= m < |before| ensures Plain(before[m]) {
      assert before[m] == s[m];
    }
    forall m | 0 <= m < |after| ensures Plain(after[m]) {
      assert after[m] == s[i + 1 + m] && after[m] in after;
    }
  }

  /** Around the first '@', both sides are plain exactly when the whole string has no
      white space and no second '@'. */
  lemma PlainAroundFirstAt(s: string)
    requires IndexOf(s, '@') < |s|
    ensures var i := IndexOf(s, '@');
      AllPlain(s[..i]) && AllPlain(s[i + 1..]) <==> NoWhitespace(s) && '@' !in s[i + 1..]
  {
    var i := IndexOf(s, '@');
    if AllPlain(s[..i]) && AllPlain(s[i + 1..]) {
      PlainSidesHaveNoWhitespace(s, i);
    }
    if NoWhitespace(s) && '@' !in s[i + 1..] {
      NoWhitespaceSidesArePlain(s);
    }
  }

  /** The check in plain words: no white space anywhere, exactly one '@', something
      before it, and after it a '.' that is neither the first nor the last character. */
  lemma EmailShape(s: string)
    ensures IsValidEmail(s) <==>
      NoWhitespace(s) && CountOf(s, '@') == 1 && IndexOf(s, '@') > 0 && HasInnerDot(AfterAt(s))
  {
    var i := IndexOf(s, '@');
    if i == |s| {
      CountOfZero(s, '@');
    } else {
      CountFromFirst(s, '@');
      CountOfZero(s[i + 1..], '@');
      PlainAroundFirstAt(s);
    }
  }

  /** A valid address is its local part, '@', and the rest; the local part is not empty. */
  lemma ValidEmailSplits(s: string)
    requires IsValidEmail(s)
    ensures LocalPart(s) != [] && s == LocalPart(s) + "@" + AfterAt(s)
  {
    var i := IndexOf(s, '@');
    assert s == s[..i] + [s[i]] + s[i + 1..];
  }

  /** The empty string is never a valid address (so a remembered address is never empty). */
  lemma EmptyIsInvalid()
    ensures !IsValidEmail("")
  {
  }
}

=== FILE: flows.dfy ===
/** How the pages meet through the session storage. The keys are kept as the pages
    write them: sign-in, sign-up and guest access write `currentUser`, the admin page
    reads `currentUser`, the user page reads `nexusUser`, and both logouts remove
    `nexusUser`. */
module Flows {
  import opened Optional
  import opened Storage
  import SignIn
  import SignUp
  import Admin

  /** An admin who signs in passes the admin page's check with the session just written. */
  lemma SignedInAdminReachesAdminPage(items: map<string, Session>, a: Account)
    requires a.role == "admin"
    ensures var s := SignIn.SignInSession(a);
      PageSession(items[CURRENT_USER := s], CURRENT_USER, "admin") == Some(s)
  {
  }

  /** The guest session is turned away by the admin page. */
  lemma GuestFailsAdminCheck(items: map<string, Session>)
    ensures PageSession(items[CURRENT_USER := SignIn.GUEST_SESSION], CURRENT_USER, "admin") == None
  {
  }

  /** Writing `currentUser` never changes what the user page's check sees. */
  lemma UserPageIgnoresCurrentUser(items: map<string, Session>, s: Session)
    ensures PageSession(items[CURRENT_USER := s], NEXUS_USER, "user") == PageSession(items, NEXUS_USER, "user")
  {
  }

  /** Logging out leaves the `currentUser` session in place. */
  lemma LogoutKeepsCurrentUser(items: map<string, Session>)
    requires CURRENT_USER in items
    ensures CURRENT_USER in items - {NEXUS_USER} && (items - {NEXUS_USER})[CURRENT_USER] == items[CURRENT_USER]
  {
  }

  /** The two sessions an account can write differ only in the name, which sign-in
      leaves out. */
  lemma SessionsDifferOnlyInName(a: Account)
    ensures SignUp.SignupSession(a) == SignIn.SignInSession(a).(name := Some(a.name))
    ensures SignIn.SignInSession(a).name == None
  {
  }

  /** On an admin page with an avatar, an admin who signs in passes the check but
      `init` does not return, while the same admin's sign-up session lets it return. */
  lemma SignedInAdminStopsAdminInit(items: map<string, Session>, a: Account)
    requires a.role == "admin"
    ensures var s := PageSession(items[CURRENT_USER := SignIn.SignInSession(a)], CURRENT_USER, "admin");
      s.Some? && !Admin.InitCompletes(true, s)
    ensures Admin.InitCompletes(true, PageSession(items[CURRENT_USER := SignUp.SignupSession(a)], CURRENT_USER, "admin"))
  {
  }
}

=== FILE: optional.dfy ===
/** The absent-or-present value used for JavaScript's `null`/`undefined` results. */
module Optional {

  datatype Option<+T> = None | Some(value: T)
}

=== FILE: server.dfy ===
/** The static file server's request handler, with Node's `http` and `fs` removed: the
    request URL is an input, the file read is a function from path to read outcome, and
    the response is a value. */
module Server {
  import opened Optional

  newtype byte = x: int | 0 <= x < 256

  /** What `fs.readFile` reports: the file's bytes, or an error code such as "ENOENT". */
  datatype ReadResult = Data(bytes: seq<byte>) | ReadError(code: string)

  datatype Body = TextBody(text: string) | Bytes(data: seq<byte>)

  /** What the handler writes: the status, the `Content-Type` header if one is set, and
      the body. */
  datatype Response = Response(status: nat, contentType: Option<string>, body: Body)

  /** The file a URL names, relative to the serving directory: "/" is "index.html".
      `path.join`'s normalisation of the rest is not modelled. */
  function RequestPath(url: string): (path: string)
    ensures url == "/" ==> path == "index.html"
    ensures url != "/" ==> path == url
  {
    if url == "/" then "index.html" else url
  }

  /** The last index of `c` among the first `n` characters of `s`, if any. */
  function LastIndexBelow(s: string, c: char, n: nat): (r: Option<nat>)
    requires n <= |s|
    ensures r.Some? ==> r.value < n && s[r.value] == c
    ensures r.Some? ==> forall k :: r.value < k < n ==> s[k] != c
    ensures r.None? ==> forall k :: 0 <= k < n ==> s[k] != c
  {
    if n == 0 then None
    else if s[n - 1] == c then Some(n - 1)
    else LastIndexBelow(s, c, n - 1)
  }

  /** Where the first `n` characters of the path end once their trailing '/', which
      `path.extname` skips, are dropped. */
  function SegmentEnd(path: string, n: nat): (end: nat)
    requires n <= |path|
    ensures end <= n && (end == 0 || path[end - 1] != '/')
    ensures forall k :: end <= k < n ==> path[k] == '/'
  {
    if n > 0 && path[n - 1] == '/' then SegmentEnd(path, n - 1) else n
  }

  /** Where the segment that ends at `end` starts: just past the last '/' before it. */
  function SegmentStart(path: string, end: nat): (start: nat)
    requires end <= |path|
    ensures start <= end && (start == 0 || path[start - 1] == '/')
    ensures forall k :: start <= k < end ==> path[k] != '/'
  {
    var slash := LastIndexBelow(path, '/', end);
    if slash.Some? then slash.value + 1 else 0
  }

  /** The last segment of the path once trailing '/' are skipped. */
  function LastSegment(path: string): string {
    var end := SegmentEnd(path, |path|);
    path[SegmentStart(path, end)..end]
  }

  /** Only '/' follow the end of the last segment, which holds no '/' and reaches back
      to a '/' or to the start of the path. */
  lemma LastSegmentSpec(path: string)
    ensures var end := SegmentEnd(path, |path|); var seg := LastSegment(path);
      && (forall k :: end <= k < |path| ==> path[k] == '/') && (end == 0 || path[end - 1] != '/')
      && '/' !in seg && |seg| <= end && seg == path[end - |seg|..end]
      && (|seg| == end || path[end - |seg| - 1] == '/')
  {
    var end := SegmentEnd(path, |path|);
    var start := SegmentStart(path, end);
    var seg := path[start..end];
    assert forall k :: 0 <= k < |seg| ==> seg[k] == path[start + k];
  }

  /** The segment "..". */
  predicate IsDotDot(seg: string) {
    |seg| == 2 && seg[0] == '.' && seg[1] == '.'
  }

  /** A segment with an extension: a '.' past its first character, and not "..". */
  predicate HasExtension(seg: string) {
    !IsDotDot(seg) && exists k :: 0 < k < |seg| && seg[k] == '.'
  }

  /** `path.extname`: from the last '.' of the last segment (trailing '/' skipped) to
      the segment's end, unless that '.' is the segment's first character or the
      segment is "..". */
  function Extname(path: string): string {
    var end := SegmentEnd(path, |path|);
    var start := SegmentStart(path, end);
    var dot := LastIndexBelow(path, '.', end);
    if dot.Some? && dot.value > start && !(end == start + 2 && path[start] == '.' && path[start + 1] == '.')
    then path[dot.value..end]
    else []
  }

  /** The extension is empty exactly when the last segment has no '.' past its first
      character, or is ".."; otherwise it is the segment's suffix from its last '.'. */
  lemma ExtnameSpec(path: string)
    ensures var seg, ext := LastSegment(path), Extname(path);
      && (ext != [] <==> HasExtension(seg))
      && (ext != [] ==> |ext| < |seg| && ext == seg[|seg| - |ext|..] && ext[0] == '.' && '.' !in ext[1..])
  {
    ExtnameWhenHasExtension(path);
    ExtnameIsSuffix(path);
  }

  /** The extension is non-empty exactly when the last segment has one. */
  lemma ExtnameWhenHasExtension(path: string)
    ensures Extname(path) != [] <==> HasExtension(LastSegment(path))
  {
    var end := SegmentEnd(path, |path|);
    var start := SegmentStart(path, end);
    var seg := LastSegment(path);
    assert forall k :: 0 <= k < |seg| ==> seg[k] == path[start + k];
    assert IsDotDot(seg) <==> end == start + 2 && path[start] == '.' && path[start + 1] == '.';
    if HasExtension(seg) {
      var k :| 0 < k < |seg| && seg[k] == '.';
      assert path[start + k] == '.';
    }
    if Extname(path) != [] {
      var dot := LastIndexBelow(path, '.', end);
      assert seg[dot.value - start] == '.';
    }
  }

  /** A non-empty extension is the last segment's suffix from its last '.'. */
  lemma ExtnameIsSuffix(path: string)
    ensures var seg, ext := LastSegment(path), Extname(path);
      ext != [] ==> |ext| < |seg| && ext == seg[|seg| - |ext|..] && ext[0] == '.' && '.' !in ext[1..]
  {
    var end := SegmentEnd(path, |path|);
    var start := SegmentStart(path, end);
    var dot := LastIndexBelow(path, '.', end);
    var ext := Extname(path);
    if ext != [] {
      assert ext == path[dot.value..end];
      assert forall k :: 0 <= k < |ext| ==> ext[k] == path[dot.value + k];
    }
  }

  /** Every character of `stem.e` from the stem's last one on is not '/'. */
  lemma NameTailHasNoSlash(stem: string, e: string)
    requires stem != [] && stem[|stem| - 1] != '/' && '/' !in e
    ensures var path := stem + "." + e; forall k :: |stem| - 1 <= k < |path| ==> path[k] != '/'
  {
    var path := stem + "." + e;
    forall k | |stem| - 1 <= k < |path| ensures path[k] != '/' {
      if k == |stem| - 1 {
        assert path[k] == stem[|stem| - 1];
      } else if k > |stem| {
        assert path[k] == e[k - |stem| - 1];
      }
    }
  }

  /** In `stem.e`, where `e` holds no '.', the last '.' is the one after the stem. */
  lemma NameLastDot(stem: string, e: string)
    requires '.' !in e
    ensures var path := stem + "." + e; LastIndexBelow(path, '.', |path|) == Some(|stem|)
  {
    var path := stem + "." + e;
    assert path[|stem|] == '.';
    assert forall k :: |stem| < k < |path| ==> path[k] == e[k - |stem| - 1];
  }

  /** A name `stem.e`, whose stem does not end a path segment, whose `e` holds no '.'
      or '/', and whose last segment is not "..", has the extension `.e`. */
  lemma ExtnameOfName(stem: string, e: string)
    requires stem != [] && stem[|stem| - 1] != '/'
    requires '.' !in e && '/' !in e
    requires !(e == "" && stem[|stem| - 1] == '.' && (|stem| == 1 || stem[|stem| - 2] == '/'))
    ensures Extname(stem + "." + e) == "." + e
  {
    var path := stem + "." + e;
    NameTailHasNoSlash(stem, e);
    NameLastDot(stem, e);
    var end := SegmentEnd(path, |path|);
    assert end == |path|;
    var start := SegmentStart(path, end);
    assert start < |stem|;
    assert start > 0 ==> path[start - 1] == stem[start - 1];
    assert path[|stem|..] == "." + e;
  }

  /** The `switch (ext)` of the handler. */
  function ContentType(ext: string): (t: string)
    ensures ext == ".css" <==> t == "text/css"
    ensures ext == ".js" <==> t == "text/javascript"
    ensures ext == ".json" <==> t == "application/json"
    ensures ext == ".png" <==> t == "image/png"
    ensures ext == ".jpg" <==> t == "image/jpeg"
    ensures ext !in [".css", ".js", ".json", ".png", ".jpg"] <==> t == "text/html"
  {
    match ext
    case ".css" => "text/css"
    case ".js" => "text/javascript"
    case ".json" => "application/json"
    case ".png" => "image/png"
    case ".jpg" => "image/jpeg"
    case _ => "text/html"
  }

  /** The `fs.readFile` callback. */
  function Reply(result: ReadResult, contentType: string): (r: Response)
    ensures r.status == 200 <==> result.Data?
    ensures r.status == 404 <==> result.ReadError? && result.code == "ENOENT"
    ensures r.status == 500 <==> result.ReadError? && result.code != "ENOENT"
    ensures r.contentType.Some? <==> r.status == 200
    ensures r.status == 200 ==> r == Response(200, Some(contentType), Bytes(result.bytes))
    ensures r.status == 404 ==> r.body == TextBody("File not found")
    ensures r.status == 500 ==> r.body == TextBody("Server error")
  {
    match result
    case Data(bytes) => Response(200, Some(contentType), Bytes(bytes))
    case ReadError(code) =>
      if code == "ENOENT" then Response(404, None, TextBody("File not found"))
      else Response(500, None, TextBody("Server error"))
  }

  /** The request handler: map the URL to a file, choose the content type from its
      extension, read it, and reply. */
  function Handle(url: string, readFile: string -> ReadResult): (r: Response)
    ensures var result := readFile(RequestPath(url));
      && (r.status == 200 <==> result.Data?)
      && (r.status == 404 <==> result == ReadError("ENOENT"))
      && (r.status == 500 <==> result.ReadError? && result.code != "ENOENT")
      && (r.status == 200 ==> r.contentType == Some(ContentType(Extname(RequestPath(url)))) && r.body == Bytes(result.bytes))
      && (r.status != 200 ==> r.contentType == None)
  {
    var path := RequestPath(url);
    Reply(readFile(path), ContentType(Extname(path)))
  }

  /** The root URL reads `index.html` and, when it is found, is served as HTML. */
  lemma RootServesIndex(readFile: string -> ReadResult)
    ensures Handle("/", readFile) == Reply(readFile("index.html"), "text/html")
  {
  }

  /** A readable file `stem.e` is served with status 200 and the type its extension
      `.e` selects; a `.jpeg` file is served as HTML. */
  lemma HandleContentType(stem: string, e: string, readFile: string -> ReadResult)
    requires stem != [] && stem[|stem| - 1] != '/'
    requires '.' !in e && '/' !in e
    requires !(e == "" && stem[|stem| - 1] == '.' && (|stem| == 1 || stem[|stem| - 2] == '/'))
    requires readFile(stem + "." + e).Data?
    ensures var r := Handle(stem + "." + e, readFile);
      && r.status == 200
      && r.contentType == Some(ContentType("." + e))
      && (e == "jpeg" ==> r.contentType == Some("text/html"))
  {
    if e == "jpeg" {
      JpegIsHtml(e);
    }
    var path := stem + "." + e;
    ExtnameOfName(stem, e);
    assert RequestPath(path) == path;
    assert Handle(path, readFile) == Reply(readFile(path), ContentType("." + e));
  }

  /** `.jpeg` is not among the five extensions the switch names. */
  lemma JpegIsHtml(e: string)
    requires e == "jpeg"
    ensures ContentType("." + e) == "text/html"
  {
    assert "." + e == ".jpeg";
  }

  /** A path whose last segment has no '.' past its first character has no extension,
      so a readable one is served as HTML. */
  lemma NoExtensionIsHtml(url: string, readFile: string -> ReadResult)
    requires url != "/" && '.' !in url
    requires readFile(url).Data?
    ensures Handle(url, readFile).contentType == Some("text/html")
  {
  }
}

=== FILE: signin.dfy ===
/** The sign-in page: the form check, the credential lookup in `nexusUsers`, the
    session it writes, "remember me", guest access and the forgot-password link. The
    page's class keeps no state of its own, so its handlers are plain methods over the
    browser storage. */
module SignIn {
  import opened Optional
  import opened Text
  import opened Email
  import opened Storage
  import SignUp

  const PASSWORD_REQUIRED := "Password is required."
  const INVALID_CREDENTIALS := "Invalid email or password. Please try again."
  const EMPTY_RESET_EMAIL := "Please enter your email address to reset your password."
  const GUEST_EMAIL := "guest@nexus.ai"

  /** The session `handleGuestAccess` writes. */
  const GUEST_SESSION := Session(GUEST_EMAIL, "guest", None, true, None)

  /** What the page shows after a sign-in attempt: an error, or the page it goes to. */
  datatype SignInOutcome = ShowError(message: string) | Redirect(page: string)

  datatype ResetOutcome = ResetError(message: string) | ResetSent(message: string)

  /** The errors `validateForm` collects, in the order it pushes them. */
  function SignInErrors(email: string, password: string): seq<string> {
    (if !IsValidEmail(email) then [INVALID_EMAIL] else [])
    + (if Utf16Length(password) == 0 then [PASSWORD_REQUIRED] else [])
  }

  /** The form passes exactly when the address is valid and the password is not empty:
      any non-empty password passes, whatever its length; each failed check gives one
      entry and nothing else is reported; an invalid address is reported before a
      missing password. */
  lemma SignInErrorsSpec(email: string, password: string)
    ensures var errors := SignInErrors(email, password);
      && (INVALID_EMAIL in errors <==> !IsValidEmail(email))
      && (PASSWORD_REQUIRED in errors <==> password == [])
      && (errors == [] <==> IsValidEmail(email) && password != [])
      && |errors| == (if !IsValidEmail(email) then 1 else 0) + (if password == [] then 1 else 0)
      && (|errors| == 2 ==> errors == [INVALID_EMAIL, PASSWORD_REQUIRED])
  {
  }

  /** `validateForm`: pushes one message per failed check. */
  method ValidateForm(email: string, password: string) returns (errors: seq<string>)
    ensures errors == SignInErrors(email, password)
  {
    errors := [];
    if !IsValidEmail(email) {
      errors := errors + [INVALID_EMAIL];
    }
    if Utf16Length(password) == 0 {
      errors := errors + [PASSWORD_REQUIRED];
    }
  }

  /** The index of the first account with address `email`, `|users|` when none. */
  function FirstWithEmail(users: seq<Account>, email: string): (i: nat)
    ensures i <= |users|
    ensures i < |users| ==> users[i].email == email
    ensures forall k :: 0 <= k < i ==> users[k].email != email
  {
    if users == [] then 0
    else if users[0].email == email then 0
    else 1 + FirstWithEmail(users[1..], email)
  }

  /** `users.find(u => u.email === email)`. */
  function FindAccount(users: seq<Account>, email: string): (r: Option<Account>)
    ensures r.Some? <==> EmailTaken(users, email)
    ensures r.Some? ==> r.value.email == email && r.value in users
    ensures r.Some? ==> r.value == users[FirstWithEmail(users, email)]
  {
    var i := FirstWithEmail(users, email);
    if i < |users| then Some(users[i]) else None
  }

  /** `user && user.password === password`: the first account with the address decides. */
  function Authenticate(users: seq<Account>, email: string, password: string): Option<Account> {
    var found := FindAccount(users, email);
    if found.Some? && found.value.password == password then found else None
  }

  /** Sign-in succeeds exactly when the first account with the address has the given
      password; an unknown address always fails. */
  lemma AuthenticateSpec(users: seq<Account>, email: string, password: string)
    ensures var i := FirstWithEmail(users, email);
      Authenticate(users, email, password).Some? <==> i < |users| && users[i].password == password
    ensures !EmailTaken(users, email) ==> Authenticate(users, email, password) == None
    ensures Authenticate(users, email, password).Some? ==>
      Authenticate(users, email, password) == Some(users[FirstWithEmail(users, email)])
  {
  }

  /** With unique addresses (what sign-up keeps) sign-in succeeds exactly when some
      stored account has both the address and the password. */
  lemma AuthenticateUnique(users: seq<Account>, email: string, password: string)
    requires UniqueEmails(users)
    ensures Authenticate(users, email, password).Some? <==>
      exists k :: 0 <= k < |users| && users[k].email == email && users[k].password == password
  {
    var i := FirstWithEmail(users, email);
    if exists k :: 0 <= k < |users| && users[k].email == email && users[k].password == password {
      var k :| 0 <= k < |users| && users[k].email == email && users[k].password == password;
      assert !(k < i);
      assert users[i].email == users[k].email;
    }
  }

  /** A lookup in a list extended at the end finds the same account if it found one,
      and the new account otherwise. */
  lemma {:induction false} FirstWithEmailAppend(users: seq<Account>, a: Account)
    requires !EmailTaken(users, a.email)
    ensures FirstWithEmail(users + [a], a.email) == |users|
  {
    if users != [] {
      assert !EmailTaken(users[1..], a.email) by {
        forall k | 0 <= k < |users[1..]| ensures users[1..][k].email != a.email {
          assert users[1..][k] == users[k + 1];
        }
      }
      FirstWithEmailAppend(users[1..], a);
      assert (users + [a])[1..] == users[1..] + [a];
    }
  }

  /** Registration followed by sign-in: an account sign-up just stored passes the
      sign-in check with the same address and password and is the one found. */
  lemma RegisteredAccountSignsIn(users: seq<Account>, form: SignUp.SignupForm, role: string)
    requires SignUp.SignupErrors(form, role) == []
    requires !EmailTaken(users, form.email)
    ensures var a := SignUp.NewAccount(form, role);
      && SignInErrors(form.email, form.password) == []
      && Authenticate(users + [a], form.email, form.password) == Some(a)
  {
    AcceptedFormPassesSignIn(form, role);
    var a := SignUp.NewAccount(form, role);
    AppendedAccountSignsIn(users, a);
  }

  /** A form sign-up accepts has credentials the sign-in form accepts. */
  lemma AcceptedFormPassesSignIn(form: SignUp.SignupForm, role: string)
    requires SignUp.SignupErrors(form, role) == []
    ensures SignInErrors(form.email, form.password) == []
  {
    SignUp.SignupErrorsSpec(form, role);
  }

  /** An account appended under a new address is the one its own credentials find. */
  lemma AppendedAccountSignsIn(users: seq<Account>, a: Account)
    requires !EmailTaken(users, a.email)
    ensures Authenticate(users + [a], a.email, a.password) == Some(a)
  {
    FirstWithEmailAppend(users, a);
  }

  /** The session record sign-in writes: the account's email, role, domain and
      general-access flag, and nothing else. */
  function SignInSession(a: Account): (s: Session)
    ensures s.email == a.email && s.role == a.role && s.domain == Some(a.domain)
    ensures s.generalUser == a.generalUser && s.name == None
  {
    Session(a.email, a.role, Some(a.domain), a.generalUser, None)
  }

  /** `handleSignIn` without the page and the delays: the e-mail is trimmed; a failed
      check shows the errors joined by spaces; unknown credentials show one error; on
      success the session goes under `currentUser`, "remember me" stores the address,
      and the page is chosen by role. Failures leave storage as it was. */
  method HandleSignIn(rawEmail: string, password: string, rememberMe: bool, store: BrowserStorage)
    returns (outcome: SignInOutcome)
    modifies store
    ensures var email := Trim(rawEmail);
      var errors := SignInErrors(email, password);
      var user := Authenticate(old(store.users), email, password);
      if errors != [] then
        outcome == ShowError(Join(errors, " ")) && unchanged(store)
      else if user.None? then
        outcome == ShowError(INVALID_CREDENTIALS) && unchanged(store)
      else
        && outcome == Redirect(RedirectFor(user.value.role))
        && store.users == old(store.users)
        && store.session == old(store.session)[CURRENT_USER := SignInSession(user.value)]
        && store.local == (if rememberMe then old(store.local)[REMEMBER_ME := "true"][USER_EMAIL := email]
                           else old(store.local))
  {
    var email := Trim(rawEmail);
    var errors := ValidateForm(email, password);
    if |errors| > 0 {
      return ShowError(Join(errors, " "));
    }
    var users := store.users;
    var user := FindAccount(users, email);
    if user.Some? && user.value.password == password {
      if rememberMe {
        store.local := store.local[REMEMBER_ME := "true"];
        store.local := store.local[USER_EMAIL := email];
      }
      store.session := store.session[CURRENT_USER := SignInSession(user.value)];
      outcome := Redirect(RedirectFor(user.value.role));
    } else {
      outcome := ShowError(INVALID_CREDENTIALS);
    }
  }

  /** `handleGuestAccess`: the fixed guest session, then the user page. */
  method HandleGuestAccess(store: BrowserStorage) returns (page: string)
    modifies store
    ensures page == "user.html"
    ensures store.session == old(store.session)[CURRENT_USER := GUEST_SESSION]
    ensures store.users == old(store.users) && store.local == old(store.local)
  {
    store.session := store.session[CURRENT_USER := GUEST_SESSION];
    page := "user.html";
  }

  /** `handleForgotPassword`: an empty address is reported before the format check. */
  function ForgotPassword(rawEmail: string): (r: ResetOutcome)
    ensures Trim(rawEmail) == [] ==> r == ResetError(EMPTY_RESET_EMAIL)
    ensures Trim(rawEmail) != [] && !IsValidEmail(Trim(rawEmail)) ==> r == ResetError(INVALID_EMAIL)
    ensures r.ResetSent? <==> IsValidEmail(Trim(rawEmail))
    ensures r.ResetSent? ==>
      r.message == "Password reset link sent to " + Trim(rawEmail) + ". Check your inbox!"
  {
    var email := Trim(rawEmail);
    if email == [] then ResetError(EMPTY_RESET_EMAIL)
    else if !IsValidEmail(email) then ResetError(INVALID_EMAIL)
    else ResetSent("Password reset link sent to " + email + ". Check your inbox!")
  }

  /** The page-load prefill: the saved address, when "remember me" was stored and the
      saved address is not empty. */
  function RememberedEmail(local: map<string, string>): Option<string> {
    if REMEMBER_ME in local && local[REMEMBER_ME] == "true" && USER_EMAIL in local && local[USER_EMAIL] != ""
    then Some(local[USER_EMAIL]) else None
  }

  /** After a successful sign-in with "remember me" ticked, the next visit prefills the
      address that was signed in with. */
  lemma RememberMeRoundTrip(local: map<string, string>, email: string)
    requires IsValidEmail(email)
    ensures RememberedEmail(local[REMEMBER_ME := "true"][USER_EMAIL := email]) == Some(email)
  {
    assert email != [] by { EmptyIsInvalid(); }
  }
}

=== FILE: signup.dfy ===
/** The sign-up page: the role switch, which form fields are shown, the form check,
    and registration into the `nexusUsers` account list. */
module SignUp {
  import opened Optional
  import opened Text
  import opened Email
  import opened Storage

  const LENGTH_ERROR := "Password must be at least 8 characters long."
  const MATCH_ERROR := "Passwords do not match."
  const DOMAIN_ERROR := "Please select a domain or check \"General User\"."
  const DUPLICATE_ALERT := "An account with this email already exists. Please sign in instead."
  const MIN_PASSWORD_LENGTH := 8

  /** The values read from the form; `domain` is the selected option's value, "" when
      none is selected. */
  datatype SignupForm = SignupForm(email: string, password: string, confirmPassword: string,
                                   generalUser: bool, domain: string)

  /** The CSS `display` values the page assigns: "none", "flex" and "block". */
  datatype Display = Hidden | Flex | Block

  datatype Visibility = Visibility(generalUserContainer: Display, domainGroup: Display)

  /** What the user sees after submitting: an alert, or the page it is sent to. */
  datatype SignupOutcome = Alert(message: string) | Redirect(page: string)

  /** `updateFormVisibility` as a decision: admins see neither the "General User"
      checkbox nor the domain list; users see the checkbox, and the domain list unless
      the checkbox is ticked. */
  function FormVisibility(role: string, generalChecked: bool): (v: Visibility)
    ensures v.generalUserContainer != Hidden <==> role != "admin"
    ensures v.domainGroup != Hidden <==> role != "admin" && !generalChecked
  {
    if role == "admin" then Visibility(Hidden, Hidden)
    else Visibility(Flex, if generalChecked then Hidden else Block)
  }

  /** The messages for the four failed checks, in the order `validateForm` pushes them. */
  function ErrorList(badEmail: bool, tooShort: bool, mismatch: bool, noDomain: bool): seq<string> {
    (if badEmail then [INVALID_EMAIL] else [])
    + (if tooShort then [LENGTH_ERROR] else [])
    + (if mismatch then [MATCH_ERROR] else [])
    + (if noDomain then [DOMAIN_ERROR] else [])
  }

  /** The errors `validateForm` collects for a form and a role. */
  function SignupErrors(form: SignupForm, role: string): seq<string> {
    ErrorList(!IsValidEmail(form.email),
              Utf16Length(form.password) < MIN_PASSWORD_LENGTH,
              form.password != form.confirmPassword,
              role == "user" && !form.generalUser && form.domain == "")
  }

  /** The position of each message in the fixed order of the checks. */
  function ErrorRank(message: string): nat {
    if message == INVALID_EMAIL then 0
    else if message == LENGTH_ERROR then 1
    else if message == MATCH_ERROR then 2
    else 3
  }

  /** The four messages are distinct, and their ranks follow the order of the checks. */
  lemma MessagesDistinct()
    ensures ErrorRank(INVALID_EMAIL) == 0 && ErrorRank(LENGTH_ERROR) == 1
    ensures ErrorRank(MATCH_ERROR) == 2 && ErrorRank(DOMAIN_ERROR) == 3
  {
    assert |INVALID_EMAIL| != |LENGTH_ERROR| && |INVALID_EMAIL| != |MATCH_ERROR|;
    assert |LENGTH_ERROR| != |MATCH_ERROR| && |DOMAIN_ERROR| != |INVALID_EMAIL|;
    assert |DOMAIN_ERROR| != |LENGTH_ERROR| && |DOMAIN_ERROR| != |MATCH_ERROR|;
  }

  /** Each message is in the list exactly when its check failed, the messages keep the
      order of the checks, there is one entry per failed check and no other, and the
      list is empty exactly when no check failed. */
  lemma ErrorListSpec(badEmail: bool, tooShort: bool, mismatch: bool, noDomain: bool)
    ensures var errors := ErrorList(badEmail, tooShort, mismatch, noDomain);
      && (INVALID_EMAIL in errors <==> badEmail)
      && (LENGTH_ERROR in errors <==> tooShort)
      && (MATCH_ERROR in errors <==> mismatch)
      && (DOMAIN_ERROR in errors <==> noDomain)
      && (forall i, j :: 0 <= i < j < |errors| ==> ErrorRank(errors[i]) < ErrorRank(errors[j]))
      && |errors| == (if badEmail then 1 else 0) + (if tooShort then 1 else 0)
                     + (if mismatch then 1 else 0) + (if noDomain then 1 else 0)
      && (errors == [] <==> !badEmail && !tooShort && !mismatch && !noDomain)
  {
    MessagesDistinct();
  }

  /** Each error is reported exactly when its condition holds, once, and nothing else
      is; the errors come in the order email, length, match, domain; and the form
      passes exactly when all four conditions hold. */
  lemma SignupErrorsSpec(form: SignupForm, role: string)
    ensures var errors := SignupErrors(form, role);
      && (INVALID_EMAIL in errors <==> !IsValidEmail(form.email))
      && (LENGTH_ERROR in errors <==> Utf16Length(form.password) < MIN_PASSWORD_LENGTH)
      && (MATCH_ERROR in errors <==> form.password != form.confirmPassword)
      && (DOMAIN_ERROR in errors <==> role == "user" && !form.generalUser && form.domain == "")
      && (forall i, j :: 0 <= i < j < |errors| ==> ErrorRank(errors[i]) < ErrorRank(errors[j]))
      && |errors| == (if !IsValidEmail(form.email) then 1 else 0)
                     + (if Utf16Length(form.password) < MIN_PASSWORD_LENGTH then 1 else 0)
                     + (if form.password != form.confirmPassword then 1 else 0)
                     + (if role == "user" && !form.generalUser && form.domain == "" then 1 else 0)
      && (errors == [] <==>
            IsValidEmail(form.email) && Utf16Length(form.password) >= MIN_PASSWORD_LENGTH
            && form.password == form.confirmPassword
            && !(role == "user" && !form.generalUser && form.domain == ""))
  {
    var badEmail := !IsValidEmail(form.email);
    var tooShort := Utf16Length(form.password) < MIN_PASSWORD_LENGTH;
    var mismatch := form.password != form.confirmPassword;
    var noDomain := role == "user" && !form.generalUser && form.domain == "";
    assert SignupErrors(form, role) == ErrorList(badEmail, tooShort, mismatch, noDomain);
    ErrorListSpec(badEmail, tooShort, mismatch, noDomain);
  }

  /** The two roles the role buttons offer. */
  predicate KnownRole(role: string) {
    role == "user" || role == "admin"
  }

  /** The domain error only ever asks for a field the form is showing: when the domain
      list is hidden there is no domain error, and when a user sees it the error fires
      exactly when nothing is selected. */
  lemma DomainErrorOnlyWhenShown(form: SignupForm, role: string)
    requires KnownRole(role)
    ensures FormVisibility(role, form.generalUser).domainGroup == Hidden ==>
              DOMAIN_ERROR !in SignupErrors(form, role)
    ensures FormVisibility(role, form.generalUser).domainGroup != Hidden ==>
              (DOMAIN_ERROR in SignupErrors(form, role) <==> form.domain == "")
  {
    SignupErrorsSpec(form, role);
  }

  /** The account `handleSubmit` appends. */
  function NewAccount(form: SignupForm, role: string): (a: Account)
    ensures a.email == form.email && a.password == form.password && a.role == role
    ensures a.generalUser == form.generalUser
    ensures a.domain == if form.generalUser then "general" else form.domain
    ensures a.name == LocalPart(form.email)
  {
    Account(form.email, form.password, role,
            if form.generalUser then "general" else form.domain,
            form.generalUser, LocalPart(form.email))
  }

  /** The name stored for an accepted form is the address before its '@', never empty. */
  lemma NewAccountName(form: SignupForm, role: string)
    requires IsValidEmail(form.email)
    ensures var a := NewAccount(form, role);
      a.name != [] && '@' !in a.name && a.email == a.name + "@" + AfterAt(a.email)
  {
    ValidEmailSplits(form.email);
  }

  /** The session record sign-up writes under `currentUser`. */
  function SignupSession(a: Account): (s: Session)
    ensures s.email == a.email && s.role == a.role && s.domain == Some(a.domain)
    ensures s.generalUser == a.generalUser && s.name == Some(a.name)
  {
    Session(a.email, a.role, Some(a.domain), a.generalUser, Some(a.name))
  }

  /** Registering an address that is not yet taken keeps the addresses unique. */
  lemma {:induction false} RegisterKeepsEmailsUnique(users: seq<Account>, a: Account)
    requires UniqueEmails(users) && !EmailTaken(users, a.email)
    ensures UniqueEmails(users + [a])
  {
    var all := users + [a];
    forall i, j | 0 <= i < j < |all| ensures all[i].email != all[j].email {
      if j == |users| {
        assert all[i] == users[i];
      } else {
        assert all[i] == users[i] && all[j] == users[j];
      }
    }
  }

  class SignupManager {
    /** The role chosen with the two role buttons. */
    var selectedRole: string

    /** Only the two role buttons set the role. */
    ghost predicate Valid()
      reads this
    {
      KnownRole(selectedRole)
    }

    constructor ()
      ensures Valid() && selectedRole == "user"
    {
      selectedRole := "user";
    }

    /** The role buttons call this with "user" or "admin". */
    method SelectRole(role: string)
      requires KnownRole(role)
      modifies this`selectedRole
      ensures Valid() && selectedRole == role
    {
      selectedRole := role;
    }

    /** `validateForm`: pushes one message per failed check. */
    method ValidateForm(form: SignupForm) returns (errors: seq<string>)
      ensures errors == SignupErrors(form, selectedRole)
      ensures Valid() && FormVisibility(selectedRole, form.generalUser).domainGroup == Hidden ==>
        DOMAIN_ERROR !in errors
    {
      errors := [];
      if !IsValidEmail(form.email) {
        errors := errors + [INVALID_EMAIL];
      }
      if Utf16Length(form.password) < MIN_PASSWORD_LENGTH {
        errors := errors + [LENGTH_ERROR];
      }
      if form.password != form.confirmPassword {
        errors := errors + [MATCH_ERROR];
      }
      if selectedRole == "user" {
        if !form.generalUser && form.domain == "" {
          errors := errors + [DOMAIN_ERROR];
        }
      }
      assert errors == SignupErrors(form, selectedRole);
      if Valid() {
        DomainErrorOnlyWhenShown(form, selectedRole);
      }
    }

    /** `handleSubmit` without the page: the e-mail is trimmed, a failed check alerts
      the joined errors, an address already stored alerts and stops, and otherwise the
      new account is appended, its session written under `currentUser`, and the page
      chosen by role. Storage is touched only on that last path. */
    method HandleSubmit(raw: SignupForm, store: BrowserStorage) returns (outcome: SignupOutcome)
      modifies store
      ensures var form := raw.(email := Trim(raw.email));
        var errors := SignupErrors(form, selectedRole);
        if errors != [] then
          outcome == Alert(Join(errors, "\n")) && unchanged(store)
        else if EmailTaken(old(store.users), form.email) then
          outcome == Alert(DUPLICATE_ALERT) && unchanged(store)
        else
          var account := NewAccount(form, selectedRole);
          && outcome == Redirect(RedirectFor(selectedRole))
          && store.users == old(store.users) + [account]
          && store.local == old(store.local)
          && store.session == old(store.session)[CURRENT_USER := SignupSession(account)]
    {
      var form := raw.(email := Trim(raw.email));
      var errors := ValidateForm(form);
      if errors != [] {
        return Alert(Join(errors, "\n"));
      }
      var users := store.users;
      if EmailTaken(users, form.email) {
        return Alert(DUPLICATE_ALERT);
      }
      var account := NewAccount(form, selectedRole);
      store.users := users + [account];
      store.session := store.session[CURRENT_USER := SignupSession(account)];
      outcome := Redirect(RedirectFor(selectedRole));
    }
  }
}

=== FILE: storage.dfy ===
/** The browser state the pages share, with the browser removed: localStorage and
    sessionStorage become in-memory maps keyed by storage key, and the JSON values the
    pages write become datatypes. */
module Storage {
  import opened Optional

  /** sessionStorage key that sign-in and sign-up write and the admin page reads. */
  const CURRENT_USER := "currentUser"
  /** sessionStorage key that the user page reads and both logouts remove. */
  const NEXUS_USER := "nexusUser"
  /** localStorage keys written by "remember me". */
  const REMEMBER_ME := "rememberMe"
  const USER_EMAIL := "userEmail"

  /** An entry of the `nexusUsers` list (its ISO timestamp is not modelled). */
  datatype Account = Account(email: string, password: string, role: string,
                             domain: string, generalUser: bool, name: string)

  /** A session record. Sign-up writes a `name`, sign-in does not, and the guest
      session has a `null` domain. */
  datatype Session = Session(email: string, role: string, domain: Option<string>,
                             generalUser: bool, name: Option<string>)

  /** One browser's storage. `users` is the parsed value of the localStorage item
      `nexusUsers` (a missing item reads as the empty list); `local` holds the other
      localStorage items and `session` the sessionStorage items. */
  class BrowserStorage {
    var users: seq<Account>
    var local: map<string, string>
    var session: map<string, Session>

    constructor ()
      ensures users == [] && local == map[] && session == map[]
    {
      users, local, session := [], map[], map[];
    }
  }

  /** `users.some(u => u.email === email)`. */
  predicate EmailTaken(users: seq<Account>, email: string) {
    exists i :: 0 <= i < |users| && users[i].email == email
  }

  /** Every stored e-mail address occurs once. */
  ghost predicate UniqueEmails(users: seq<Account>) {
    forall i, j :: 0 <= i < j < |users| ==> users[i].email != users[j].email
  }

  /** The page both forms send a signed-in account to. */
  function RedirectFor(role: string): (page: string)
    ensures page == "admin.html" <==> role == "admin"
    ensures page != "admin.html" ==> page == "user.html"
  {
    if role == "admin" then "admin.html" else "user.html"
  }

  /** A page's `checkAuthentication`: parse the item stored under `key` (a missing item
      parses as `null`) and keep it only if its role is `role`. */
  function PageSession(items: map<string, Session>, key: string, role: string): (s: Option<Session>)
    ensures s.Some? <==> key in items && items[key].role == role
    ensures s.Some? ==> s.value == items[key]
  {
    if key in items && items[key].role == role then Some(items[key]) else None
  }
}

=== FILE: text.dfy ===
/** String helpers the pages rely on: JavaScript's white space, String.prototype.trim,
    the length that `.length` reports (UTF-16 code units) and Array.prototype.join.
    A Dafny `char` is a Unicode scalar value. */
module Text {

  /** The characters that `\s` matches in a JavaScript regular expression, which are
      also the ones String.prototype.trim removes: the WhiteSpace characters (tab, line
      tabulation, form feed, U+FEFF and the space separators) and the LineTerminator
      characters (line feed, carriage return, U+2028, U+2029). */
  predicate IsWhitespace(c: char) {
    var n := c as int;
    || 0x09 <= n <= 0x0D
    || n == 0x20 || n == 0xA0 || n == 0x1680
    || 0x2000 <= n <= 0x200A
    || n == 0x2028 || n == 0x2029 || n == 0x202F || n == 0x205F
    || n == 0x3000 || n == 0xFEFF
  }

  predicate NoWhitespace(s: string) {
    forall k :: 0 <= k < |s| ==> !IsWhitespace(s[k])
  }

  predicate AllWhitespace(s: string) {
    forall k :: 0 <= k < |s| ==> IsWhitespace(s[k])
  }

  /** `r` sits at offset `lead` of `s` with only white space before and after it. */
  ghost predicate Surrounds(s: string, lead: nat, r: string) {
    && lead + |r| <= |s|
    && r == s[lead..lead + |r|]
    && (forall k :: 0 <= k < lead ==> IsWhitespace(s[k]))
    && (forall k :: lead + |r| <= k < |s| ==> IsWhitespace(s[k]))
  }

  /** What String.prototype.trim promises: `r` is `s` with white space cut from both
      ends, and `r` neither starts nor ends with white space. */
  ghost predicate IsTrimOf(s: string, r: string) {
    && (r == [] || (!IsWhitespace(r[0]) && !IsWhitespace(r[|r| - 1])))
    && exists lead: nat :: Surrounds(s, lead, r)
  }

  /** Drops the leading white space. */
  function TrimStart(s: string): (r: string)
    ensures |r| <= |s|
  {
    if s != [] && IsWhitespace(s[0]) then TrimStart(s[1..]) else s
  }

  /** Drops the trailing white space. */
  function TrimEnd(s: string): (r: string)
    ensures |r| <= |s|
  {
    if s != [] && IsWhitespace(s[|s| - 1]) then TrimEnd(s[..|s| - 1]) else s
  }

  /** String.prototype.trim. */
  function Trim(s: string): (r: string)
    ensures |r| <= |s|
  {
    TrimEnd(TrimStart(s))
  }

  /** TrimStart keeps a suffix, drops only white space, and stops at a character
      that is not white space. */
  lemma {:induction false} TrimStartSpec(s: string)
    ensures var r := TrimStart(s);
      Surrounds(s, |s| - |r|, r) && (r == [] || !IsWhitespace(r[0]))
  {
    if s != [] && IsWhitespace(s[0]) {
      var tail := s[1..];
      TrimStartSpec(tail);
      var r := TrimStart(tail);
      forall k | 0 <= k < |r| ensures r[k] == s[|s| - |r| + k] {
        assert r[k] == tail[|tail| - |r| + k];
      }
      forall k | 0 <= k < |s| - |r| ensures IsWhitespace(s[k]) {
        if k > 0 { assert s[k] == tail[k - 1]; }
      }
    }
  }

  /** TrimEnd keeps a prefix, drops only white space, and stops at a character that
      is not white space. */
  lemma {:induction false} TrimEndSpec(s: string)
    ensures var r := TrimEnd(s);
      Surrounds(s, 0, r) && (r == [] || !IsWhitespace(r[|r| - 1]))
  {
    if s != [] && IsWhitespace(s[|s| - 1]) {
      var init := s[..|s| - 1];
      TrimEndSpec(init);
      var r := TrimEnd(init);
      forall k | 0 <= k < |r| ensures r[k] == s[k] {
        assert r[k] == init[k];
      }
      forall k | |r| <= k < |s| ensures IsWhitespace(s[k]) {
        if k < |s| - 1 { assert s[k] == init[k]; }
      }
    }
  }

  /** Trim cuts white space, and only white space, from both ends, and what it keeps
      neither starts nor ends with white space. */
  lemma TrimSpec(s: string)
    ensures IsTrimOf(s, Trim(s))
  {
    var t := TrimStart(s);
    var r := TrimEnd(t);
    TrimStartSpec(s);
    TrimEndSpec(t);
    var lead := |s| - |t|;
    forall k | 0 <= k < |r| ensures r[k] == s[lead + k] {
      assert r[k] == t[k];
    }
    forall k | lead + |r| <= k < |s| ensures IsWhitespace(s[k]) {
      assert s[k] == t[k - lead];
    }
    assert Surrounds(s, lead, r);
    assert r != [] ==> r[0] == t[0];
  }

  /** A string trims to nothing exactly when it is all white space. */
  lemma TrimEmptyIff(s: string)
    ensures Trim(s) == [] <==> AllWhitespace(s)
  {
    TrimSpec(s);
    var r := Trim(s);
    var lead: nat :| Surrounds(s, lead, r);
    if r != [] {
      assert s[lead] == r[0];
    }
  }

  /** The value of `.length` on a JavaScript string: code points above U+FFFF take
      two UTF-16 code units. */
  function Utf16Length(s: string): (n: nat)
    ensures |s| <= n <= 2 * |s|
  {
    if s == [] then 0 else (if s[0] as int > 0xFFFF then 2 else 1) + Utf16Length(s[1..])
  }

  /** A code point above U+FFFF takes two code units (a surrogate pair); any other
      takes one. */
  lemma Utf16LengthOfChar(c: char)
    ensures Utf16Length([c]) == if c as int > 0xFFFF then 2 else 1
  {
    assert [c][1..] == [];
  }

  /** Code units add up over concatenation, so together with `Utf16LengthOfChar` they
      fix the length of every string. */
  lemma {:induction false} Utf16LengthAppend(a: string, b: string)
    ensures Utf16Length(a + b) == Utf16Length(a) + Utf16Length(b)
  {
    if a == [] {
      assert a + b == b;
    } else {
      var ab := a + b;
      assert ab[0] == a[0] && ab[1..] == a[1..] + b;
      Utf16LengthAppend(a[1..], b);
    }
  }

  /** `length` equals the number of characters exactly when no character lies above
      U+FFFF. */
  lemma {:induction false} Utf16LengthBmp(s: string)
    ensures Utf16Length(s) == |s| <==> forall k :: 0 <= k < |s| ==> s[k] as int <= 0xFFFF
  {
    if s != [] {
      Utf16LengthBmp(s[1..]);
      assert forall k :: 0 < k < |s| ==> s[k] == s[1..][k - 1];
      if s[0] as int > 0xFFFF {
        assert Utf16Length(s) > |s|;
      }
    }
  }

  /** Array.prototype.join. */
  function Join(parts: seq<string>, separator: string): string {
    if |parts| == 0 then ""
    else if |parts| == 1 then parts[0]
    else parts[0] + separator + Join(parts[1..], separator)
  }
}
